=== FILE: README.md ===
# jshell front end and job table, in Dafny

jshell is a Windows command shell written in C++. This project models the
part of it that works on text and small tables rather than on the operating
system:

- the line front end: the quote-aware `tokenize`, `$NAME` / `${NAME}`
  substitution, leading-`~` expansion, `parse_command` with its background
  marker and its `2>>`, `2>`, `>>`, `>` and `<` cuts, and `parse_pipeline`;
- what `execute` decides before anything runs: the one-time alias rewrite of
  the first command, the choice of builtin, the wiring of pipeline stages to
  pipes, and which stage's exit code becomes the result;
- the job table: registration of background launches, reaping in `jobs`,
  and the `fg` and `bg` transitions;
- the small helpers around them: `parse_args`, the longest common prefix of
  completions, splitting `PATH`, the history append policy and the `history`
  window, `set`, `unset` and `alias`, `config.ini` line parsing, the prompt's
  `{cwd}` and `~` display, and the outcome and command line of
  `launch_process`;
- the earlier version of the shell (`v1/jshell.cpp`): its tokenizer,
  `parse_single_command`, `split_line`, `parse_args`, `alias`, `execute` and
  `launch` command line, each set beside the current one.

Everything is a pure function over `seq<char>` strings and immutable
datatypes. What the shell asks of the operating system is a parameter: the
environment and the home directory are maps and strings, whether a file can be
opened or a program is found is a field of a `World` record, whether a job has
finished is an `ExitQuery` oracle, and what a pipeline stage returns is a
`run` function. Undefined behaviour in the source is a `Fail` value: reading
`args[0]` of an empty vector, or erasing from an empty history. Exceptions
from `std::stoi`, `std::stoul` and `substr` are `Fail` values too.

Modules, one per file: `Outcomes` (Option, Result, faults), `Text` (the
`std::string` searches, getline splitting, joining), `Numbers` (stoi, stoul,
decimal rendering, the DWORD cast), `Tokenizer`, `Expansion`, `Parser`, `Args`,
`Builtins`, `Execute`, `History`, `Variables`, `Config`, `Completion`, `Jobs`,
`Launch`, and `ShellV1` for the earlier version.

The background `&` is looked for on the substituted text before any
trimming, so `sleep 5 & ` (with a trailing space) is not a background command.

## Model

| member | source | states |
|---|---|---|
| Text.Find | jshell.cpp:756 | `find(c)`: None exactly when `c` does not occur; otherwise the index of its first occurrence |
| Text.FindSub | jshell.cpp:719-720 | `find(marker)`: None exactly when the marker does not occur; otherwise an occurrence with none before it |
| Text.SplitOn | jshell.cpp:779-785 | the `|`-separated fields: none holds the separator, joined with it they give the line back, and the last is empty exactly when the line is empty or ends in the separator |
| Text.SplitOnJoin | jshell.cpp:779-785 | fields without the separator, joined with it, split back into the same fields |
| Text.SplitOnCount | jshell.cpp:779-785 | there is one field more than there are separators |
| Text.GetlineSplitRoundTrip | jshell.cpp:776-788 | getline's pieces: the count is the number of `|` plus one, less one when the line ends in `|`; rejoined they give the line back, bar a trailing `|` |
| Numbers.Stoi | jshell.cpp:1916 | `std::stoi` with a 32-bit int: invalid_argument exactly when no digits follow the blanks and sign; out_of_range exactly when the digits read give a value outside int; otherwise that signed value, whatever follows the digits |
| Numbers.StoiLenient | jshell.cpp:1916 | for example, `std::stoi(" +07x")` is 7: blanks, a sign, leading zeros and trailing text are all accepted |
| Numbers.Stoul | jshell.cpp:2677 | `std::stoul` with a 32-bit unsigned long: invalid_argument exactly when there are no digits; out_of_range exactly when the digits read exceed ULONG_MAX; otherwise a result at most ULONG_MAX, congruent to the signed value modulo 2^32 |
| Numbers.StoiShowInt | jshell.cpp:1916 | a job id printed in decimal is read back by `std::stoi` as the same id |
| Numbers.StoulShowNat | jshell.cpp:2677 | a rendered count up to ULONG_MAX is read back by `std::stoul` unchanged |
| Numbers.DwordToInt | jshell.cpp:982 | the cast of a DWORD exit code to int: the int in range congruent to it modulo 2^32 |
| Tokenizer.Tokenize | jshell.cpp:675-703 | no word is empty; the words concatenated are the input less the quote characters that open or close a region and less the unquoted white space, in order |
| Tokenizer.FirstWord | jshell.cpp:723-726 | the file word after a marker: empty exactly when the rest has no word, otherwise its first word |
| Tokenizer.QuotedRegion | jshell.cpp:682-687 | inside a region opened by one quote, white space and the other quote join the word, up to the same quote |
| Tokenizer.UnterminatedQuote | jshell.cpp:693-700 | a region that is never closed runs to the end of the input |
| Tokenizer.QuotedWord | jshell.cpp:682-694 | a quoted text is one word holding exactly the quoted characters |
| Tokenizer.OpenQuoteToEnd | jshell.cpp:682-700 | an opening quote without a partner makes the rest of the input one word |
| Tokenizer.TokenizeJoined | jshell.cpp:688-695 | words without blanks or quotes, joined by single spaces, split back into the same words |
| Expansion.BracedAt | jshell.cpp:350 | the `${X}` alternative: X is the non-empty text up to the first `}` |
| Expansion.NamedAt | jshell.cpp:350 | the `$NAME` alternative: the longest run of name characters after a name start |
| Expansion.MatchAt | jshell.cpp:350 | a match at a position starts with `$` and spans more than one character |
| Expansion.Lookup | jshell.cpp:362-375 | the shell variable first, then the environment, else the empty string |
| Expansion.NoReferenceUnchanged | jshell.cpp:356-382 | a text in which the pattern matches nowhere comes back unchanged |
| Expansion.NoDollarUnchanged | jshell.cpp:356-382 | a text without `$` comes back unchanged |
| Expansion.LiteralPrefix | jshell.cpp:356-357 | scanning is left to right: text before the first `$` is copied and the rest is substituted on its own |
| Expansion.NamedValueNotRescanned | jshell.cpp:356-378 | `$NAME` becomes its value, which is not scanned again |
| Expansion.BracedValueNotRescanned | jshell.cpp:356-378 | `${X}` becomes the value of X, which is not scanned again |
| Expansion.ExpandPath | jshell.cpp:263-274 | a leading `~` becomes the home directory when home is known; any other path is unchanged |
| Expansion.DisplayDirectory | jshell.cpp:280-283 | a current directory under home is shown with `~` for the home prefix; others as they are |
| Expansion.DisplayThenExpand | jshell.cpp:263-283 | expanding the displayed directory gives the directory back |
| Expansion.ExpandThenDisplay | jshell.cpp:263-283 | displaying an expanded `~` path gives the `~` path back |
| Expansion.RenderPrompt | jshell.cpp:516-520 | the first `{cwd}` of the template is replaced by the directory; the rest of the template is kept |
| Parser.LastNonBlank | jshell.cpp:714 | `find_last_not_of(" \t")`: the last character that is not a space or tab, or None |
| Parser.TrimBlanksRight | jshell.cpp:714-715 | only trailing spaces and tabs are removed, and an all-blank text is kept whole |
| Parser.StripBackground | jshell.cpp:710-716 | background exactly when the last character is `&`; then `&` and the blanks before it are removed |
| Parser.CutAt | jshell.cpp:737-743 | a cut at the first occurrence of a marker: the text before it, which lacks the marker, and the first word after it |
| Parser.RedirectStep | jshell.cpp:718-754 | the long marker anywhere beats the short one; the text is cut at the first occurrence; append only when a file word followed |
| Parser.InputStep | jshell.cpp:756-764 | the text is cut at the first `<` and the input file is the first word after it |
| Parser.ParseExpanded | jshell.cpp:705-771 | background exactly when the last character is `&`; the error file and its append flag come from the `2>>`/`2>` step on the stripped text, the output file and flag from the `>>`/`>` step on what that left, the input file from the `<` step on what that left; the arguments are the words of the remaining text, each `~`-expanded |
| Parser.NoMarkersNoRedirection | jshell.cpp:718-771 | a segment without `<` or `>` sets no redirection file or append flag, and its arguments are the words of the text with the background marker stripped |
| Parser.ParsePipeline | jshell.cpp:776-788 | the empty line gives no commands; otherwise one command per `|`, less a trailing empty segment, each parsed on its own |
| Parser.WorkingTextIsMarkerFree | jshell.cpp:718-766 | the argument text is a prefix of the line and holds no `<`, `>>` or `2>>`, and no `>` unless a `>>` came first |
| Parser.NoMarkerBeforeInput | jshell.cpp:719-737 | no output or error marker starts before a leading `<` |
| Parser.StepKeepsLeadingText | jshell.cpp:718-754 | the redirect steps leave the text up to a leading `<` in place |
| Parser.InputStepAfter | jshell.cpp:756-764 | the input step cuts at the first `<` |
| Parser.TailAfterInputMarkerIgnored | jshell.cpp:756-771 | everything after `<`, later markers included, is dropped from the arguments |
| Parser.OutputStepOf | jshell.cpp:737-754 | for example, `a > f` leaves stderr alone and sends stdout to `f`, cutting the text to `a` |
| Parser.OutputTargetVerbatim | jshell.cpp:744-771 | a stdout target is taken as written, with no `~` expansion, while the words before it are expanded |
| Args.Classify | jshell.cpp:802-820 | `--k=v` is a long flag split at the first `=`, `--k` one with an empty value, `-abc` short flags, and every other word, a lone `-` included, positional |
| Args.ParseArgs | jshell.cpp:796-799 | the command name is skipped, so a call without further words has no flags |
| Args.PositionalInOrder | jshell.cpp:817-819 | the positional words are exactly the positional inputs, in their order |
| Args.ShortFlagMembership | jshell.cpp:813-816 | a short flag is set exactly when some short-flag word carries it |
| Args.LastLongFlagWins | jshell.cpp:802-811 | the last `--k` word decides the value of k |
| Args.UnnamedKeyAbsent | jshell.cpp:802-811 | a key no long flag names is absent |
| Builtins.FirstMatchSpec | jshell.cpp:2585-2586 | the scan finds the first table entry with the name, and finds nothing only when no entry has it |
| Builtins.FindBuiltinSpec | jshell.cpp:210-249 | a name selects the handler of its first entry in the table, and no handler when it is not in the table |
| Builtins.EntryReached | jshell.cpp:2585-2594 | in a table without repeated names every entry is the one its name selects |
| Execute.ExpandAlias | jshell.cpp:2574-2582 | only the first command changes: an aliased head is replaced by the alias's words, followed by the old remaining words |
| Execute.ArgsOnly | jshell.cpp:2587-2590 | a builtin is handed the command's words and no redirection or `&`; a command without them is handed unchanged |
| Execute.SingleStage | jshell.cpp:2584-2598 | a single command runs on the console with the shell state: a builtin with its words alone, an external program with its whole command |
| Execute.PipelineStage | jshell.cpp:2623-2645 | a builtin stage is called with its words alone and the shell state, and uses the console at both ends; an external stage keeps its whole command, gets no state, reads pipe i - 1 exactly when it is not first and writes pipe i exactly when it is not last |
| Execute.PipelineStages | jshell.cpp:2601-2646 | one stage per command; no two stages write one pipe or read one pipe, and only the pipes created, one fewer than the stages, are used |
| Execute.Execute | jshell.cpp:2569-2654 | 0 for no commands or an empty first command; a single command, after the alias rewrite, is undefined exactly when the rewrite leaves no words, and otherwise runs the single stage of the rewritten command; a pipeline whose pipes fail gives 1; an empty stage is undefined; otherwise the last stage's code |
| Execute.PipesConnectNeighbours | jshell.cpp:2625-2644 | pipe k is written only by stage k and read only by stage k + 1, and only when that stage is not a builtin |
| Execute.BuiltinStageOnConsole | jshell.cpp:2628-2637 | a builtin stage writes to the console and gets the shell state, so no stage writes the pipe after it |
| Execute.LastStageDecides | jshell.cpp:2652-2653 | the earlier stages' codes do not affect the result |
| Execute.AliasExpandedOnce | jshell.cpp:2575-2581 | for example, `ll x` with `ll` and `ls` both aliases becomes `ls -l x`: the new head is not looked up again |
| Execute.AliasTextNotParsed | jshell.cpp:2579-2581 | for example, an alias text holding `> out` gives the words `>` and `out` and sets no redirection |
| Execute.EmptyAliasUndefined | jshell.cpp:2575-2586 | a single command whose alias has no words is undefined: `args[0]` of an empty vector is read |
| Execute.BuiltinIgnoresRedirection | jshell.cpp:2584-2592 | a single command that selects a builtin gives the same result whatever its redirection and `&`: `cd x > out` is `cd x` |
| Execute.AliasedHeadDispatched | jshell.cpp:2575-2599 | for example, `ll x` with `alias ll='ls -l'` is dispatched on `ls`, with the words `ls -l x` |
| History.Append | jshell.cpp:664-670 | a non-empty line unlike the latest is appended, evicting the oldest at capacity; others are ignored; capacity 0 with an empty history erases from an empty vector |
| History.AppendKeepsInvariant | jshell.cpp:664-670 | with a positive capacity one append keeps the history within it and free of adjacent repeats |
| History.SessionKeepsInvariant | jshell.cpp:664-670 | the same over any sequence of entered lines |
| History.HistoryBuiltin | jshell.cpp:1184-1205 | a count std::stoi rejects gives 1 and no output; a negative count, cast to size_t, shows everything; otherwise the last min(count, size) entries |
| Variables.SetVar | jshell.cpp:1137-1162 | fewer than three words give 1; otherwise the value is the words after the name joined by single spaces, stored in both tables, and no other name changes in either table |
| Variables.UnsetVar | jshell.cpp:1164-1182 | without a name 1; otherwise the name leaves both tables and no other name changes in either table |
| Variables.SetThenReference | jshell.cpp:1145-1154 | after `set NAME w1 w2`, `$NAME` gives back the words |
| Variables.UnsetThenReference | jshell.cpp:1172-1175 | after `unset NAME`, `$NAME` expands to nothing |
| Variables.SetThenUnset | jshell.cpp:1137-1182 | `set NAME ...` then `unset NAME` leaves both tables as they were, less NAME |
| Variables.StripQuotes | jshell.cpp:1526-1529 | one pair of matching surrounding quotes is removed, and a lone quote character becomes empty |
| Variables.StripQuotesRoundTrip | jshell.cpp:1526-1529 | quoting a value and stripping it gives the value back |
| Variables.AliasBuiltin | jshell.cpp:1489-1535 | no words list the table; a text without `=` answers 0 or 1 by whether it is defined; otherwise name and value split at the first `=` |
| Variables.AliasListingRedefines | jshell.cpp:1495-1531 | a listed line `name='command'` given back to `alias` defines the same alias |
| Config.ApplyLine | jshell.cpp:2665-2677 | empty lines, `#` lines and lines without `=` change nothing, and no line changes the history file name |
| Config.SwitchLinesRoundTrip | jshell.cpp:2674-2676 | `enable_colors=v`, `auto_complete=v` and `save_history=v` set their switch on exactly when v is `true` or `1`, and change nothing else |
| Config.ApplyLinesAppend | jshell.cpp:2664-2678 | reading two parts of the file one after the other is reading the whole |
| Config.PromptLineRoundTrip | jshell.cpp:2670-2673 | `prompt_format=v` sets the prompt to v, whatever v holds |
| Config.MaxHistoryLineRoundTrip | jshell.cpp:2677 | `max_history=n` sets the capacity to n |
| Config.SpacedKeyIgnored | jshell.cpp:2670-2677 | `max_history = n` names another key and changes nothing |
| Completion.PathDirectories | jshell.cpp:298-304 | the pieces of PATH are non-empty and hold no `;` |
| Completion.PathDirectoriesCoverPath | jshell.cpp:298-304 | the pieces concatenated are PATH without its `;` characters |
| Completion.PathDirectoriesRoundTrip | jshell.cpp:298-304 | non-empty directories without `;`, joined with `;`, come back out one for one |
| Completion.CommonPrefix | jshell.cpp:459-460 | the `std::mismatch` prefix is a prefix of both strings |
| Completion.CommonPrefixLongest | jshell.cpp:459-460 | every common prefix of the two is a prefix of it |
| Completion.AccumulateIsCommon | jshell.cpp:457-461 | the folded prefix is a prefix of the start and of every string |
| Completion.AccumulateIsLongest | jshell.cpp:457-461 | every prefix common to all is a prefix of the result |
| Completion.LongestCommonPrefixSpec | jshell.cpp:454-462 | the result is the longest common prefix of the strings |
| Jobs.Register | jshell.cpp:975-977 | the new job takes the next id, is running and not stopped, goes last, and the next id goes up by one; the table invariant is kept |
| Jobs.Unfinished | jshell.cpp:1881-1892 | the kept jobs are exactly the unfinished ones |
| Jobs.FinishedJobs | jshell.cpp:1881-1892 | the reported jobs are exactly the finished ones |
| Jobs.ReapJobs | jshell.cpp:1874-1902 | `jobs` removes exactly the finished entries and leaves the next id alone |
| Jobs.ReapPartitions | jshell.cpp:1881-1892 | every job is reported or kept, exactly once |
| Jobs.UnfinishedOrdered | jshell.cpp:1881-1892 | the kept jobs keep their order |
| Jobs.ReapKeepsValid | jshell.cpp:1874-1902 | reaping keeps the table invariant |
| Jobs.FindJob | jshell.cpp:1917-1918 | `find_if` by id: the first job with the id, None when no job has it |
| Jobs.Foreground | jshell.cpp:1904-1944 | an empty table gives 1; an id std::stoi rejects throws; an id std::stoi reads that no job has gives 1 and changes nothing; otherwise the job with that id, or the latest, is removed and its exit code returned; the next id is kept |
| Jobs.ForegroundUnknownId | jshell.cpp:1914-1925 | `fg` with any text std::stoi reads as an id no job has gives 1 and changes nothing |
| Jobs.ForegroundById | jshell.cpp:1914-1943 | `fg` with any text std::stoi reads as a job's id (`07`, `+7`, ` 7` or `7x` for job 7) removes that job and returns its code |
| Jobs.ForegroundByPrintedId | jshell.cpp:1914-1943 | `fg` with the id as `jobs` prints it removes that job and returns its code |
| Jobs.ForegroundKeepsValid | jshell.cpp:1904-1944 | `fg` keeps the table invariant |
| Jobs.Background | jshell.cpp:1946-1988 | an empty table or unknown id gives 1; since no job is ever stopped, `bg` always answers 1 and changes nothing |
| Jobs.RunKeepsValid | jshell.cpp:71-72 | along any sequence of launches, `jobs`, `fg` and `bg` the table stays valid and the next id counts the launches |
| Jobs.IdsNotReused | jshell.cpp:975 | for example, after three launches and `fg 2` the next job gets id 4, not 2 |
| Launch.LaunchProcess | jshell.cpp:825-983 | no words gives 1; the redirection files are opened first, and a file named for both output and error, or for input and a write, fails the second open; the program is not found exactly when the files opened and no executable exists (127); then a failed spawn gives 1, a foreground program its exit code, a background one a job exactly when the shell state was passed, and 0 otherwise |
| Launch.SameFileTwiceFails | jshell.cpp:861-914 | `cmd > f 2> f` cannot open `f` for stderr and gives 1 without running anything |
| Launch.LaunchWithTable | jshell.cpp:963-982 | the code of the launch, and a new table entry only when a job was registered |
| Launch.TrailingIsJoin | jshell.cpp:926-934 | every rendered argument followed by a space is their space-joined form plus one space |
| Launch.CommandLineIsJoin | jshell.cpp:926-934 | the command line is the arguments after the program name, rendered and joined by single spaces |
| Launch.RenderedWord | jshell.cpp:928-931 | a rendered argument is read back as the argument |
| Launch.TokenizeRendered | jshell.cpp:926-934 | the rendered, joined arguments split back into the arguments |
| Launch.CommandLineRoundTrip | jshell.cpp:926-943 | the child, splitting its command line as the shell does, recovers the arguments after the program name |
| ShellV1.Scan | v1/jshell.cpp:250-260 | no word is empty, and no word holds `"` |
| ShellV1.Tokenize | v1/jshell.cpp:246-266 | only `"` toggles quoting: no empty word and no `"` in any word |
| ShellV1.ScanAgrees | v1/jshell.cpp:250-260 | on text without `'` the v1 scanner and the one at jshell.cpp:681-695 walk in step |
| ShellV1.TokenizeAgrees | v1/jshell.cpp:246-266 | on text without `'` both versions' `tokenize` give the same words |
| ShellV1.SingleQuoteIsLiteral | v1/jshell.cpp:251-256 | for example, v1 keeps `'` and splits inside it, where the current version makes one word |
| ShellV1.FirstWord | v1/jshell.cpp:276-282 | the file word: empty exactly when there is none, otherwise the first word |
| ShellV1.Cutoff | v1/jshell.cpp:271-272 | the argument text ends at the first `>` or `<` |
| ShellV1.ParseSingle | v1/jshell.cpp:268-287 | out_of_range exactly when both markers occur and `<` comes after `>`; otherwise each file is the first word after its marker and the arguments are the words before the first marker |
| ShellV1.ErrorMarkerNotRecognised | v1/jshell.cpp:268-287 | for example, `cmd 2> err`: v1 has no `2>`, so stdout goes to `err` and `2` is an argument |
| ShellV1.TokenizeJoinedV1 | v1/jshell.cpp:246-266 | words without blanks or `"`, joined by spaces, split back into the same words |
| ShellV1.ParseAll | v1/jshell.cpp:293-296 | the segments are parsed in order and one that throws ends the line |
| ShellV1.SplitLine | v1/jshell.cpp:289-298 | the empty line gives no commands; otherwise one per getline piece, failing exactly when a piece throws |
| ShellV1.InputAfterOutputThrows | v1/jshell.cpp:279-283 | for example, `a > o < i` throws out_of_range |
| ShellV1.ParseArgs | v1/jshell.cpp:305-318 | the command name is skipped |
| ShellV1.FlagMembership | v1/jshell.cpp:309-313 | a flag is set exactly when some word longer than one that starts with `-` carries it |
| ShellV1.ParseWordsAgrees | v1/jshell.cpp:305-318 | without `--` words both versions read the same flags and positional words, and the current one no long flags |
| ShellV1.LongWordIsFlags | v1/jshell.cpp:309-313 | in v1 `--name` sets `-` and the letters of the name as flags |
| ShellV1.AliasTextIsJoin | v1/jshell.cpp:592-593 | each word plus a space, with the last character popped, is the current version's space-joined text |
| ShellV1.Alias | v1/jshell.cpp:586-613 | the code is always 1; without `=` the table is unchanged; otherwise the name before the first `=` gets the stripped value |
| ShellV1.AliasAgrees | v1/jshell.cpp:586-613 | both versions leave the same alias table |
| ShellV1.ExpandAlias | v1/jshell.cpp:641-647 | only the first command's words change: alias words, then the old remaining words |
| ShellV1.ExpandAliasAgrees | v1/jshell.cpp:641-647 | with an alias free of `'` both versions rewrite the command to the same words |
| ShellV1.PipelineStages | v1/jshell.cpp:675-679 | one launched stage per command, builtins included; stage k alone writes pipe k and stage k + 1 alone reads it, and only the ends use the console |
| ShellV1.StagesAgree | v1/jshell.cpp:675-679 | an external stage is wired the same way by both versions; a builtin stage in a pipeline is wired differently, since v1 connects it to pipes |
| ShellV1.ExecuteV1 | v1/jshell.cpp:636-684 | the code is 1 on every path; undefined exactly for a single command whose alias leaves it without words; a pipeline launches the v1 stages of the alias-rewritten commands, or nothing when its pipes fail; a single command runs the builtin of its new head when there is one and is otherwise launched on the console |
| ShellV1.BuiltinInPipelineLaunched | v1/jshell.cpp:649-679 | for example, in `cd x \| more` v1 launches a program named `cd` |
| ShellV1.CommandLine | v1/jshell.cpp:356-359 | every argument, the program name included, rendered and joined by spaces, plus a final space |
| ShellV1.CommandLineVersions | v1/jshell.cpp:356-359 | the current command line is v1's for the arguments after the program name, less the final space |

## Left out

- Process creation, `CreateFileA`, `CreatePipe`, waiting, handle lifetimes and the threads and mutex of a pipeline: these are operating-system I/O and concurrency. Their results are parameters: the `World` record, the `run` function and the `pipesCreated` flag.
- `find_executable` and `get_completions`: they probe the file system. The executable lookup is the `executable` field of `World`, and only the common-prefix step of completion is modelled.
- The interactive line editor, console colours and `cls`: they are terminal I/O. Only the history append policy inside `read_line` is kept.
- The builtins that only do I/O (`cd`, `pwd`, `env`, `ls`, `cat`, `mkdir`, `rm`, `touch`, `cp`, `mv`, `grep`, `find`, `which`, `ps`, `kill`, `help`, `version`, `code`, `edit`, `vi`, `source`, `exit`): they read or write files, the console or other processes. The dispatch to them is modelled; their bodies are not.
- The v1 builtins other than `alias`: they print or touch files. Their common exit code 1 is part of `ShellV1.ExecuteV1`.
- `save_history`, `load_history`, reading `config.ini` from disk, `initialize_shell`, `shell_loop` and `main`: persistence and start-up. `load_config` is modelled on a sequence of lines.
- `_dupenv_s` and `SetEnvironmentVariableA`: the environment is a map parameter, and setting or removing a variable is assumed to succeed. The source only prints a warning when it fails.
- Expansion.Lookup: Windows compares environment variable names without regard to case, so after `set Foo 1` the source expands `$FOO` to `1` through the environment. The model's environment is a map with exact keys and gives the empty string. Case folding is not modelled.
- Launch.LaunchProcess: the share-mode clash is detected only when the two redirection names are spelled the same. Two spellings of one file, such as `f` and `./f` or `F` and `f`, are treated as different files, because path resolution is not modelled.
- `last_exit_code`: the state field `execute` writes is not modelled; the code is the value `execute` returns.
- `std::isspace` is the "C" locale's ASCII set. Calling it with a negative `char`, from a non-ASCII byte, is undefined behaviour that the model does not represent.
- Jobs.Register: `next_job_id` is an int and would overflow after 2^31 - 1 launches; the model counts with an unbounded integer.
- An exception thrown inside a pipeline thread ends the process. The model treats a stage's code as whatever `run` returns.
- Builtins.FindBuiltinSpec: the model does not prove facts about individual spellings in the 38-entry table, such as `dir` selecting the `ls` handler. It proves the first-match rule for any name, and its concrete instances are out of the solver's budget.

=== FILE: args.dfy ===
/** `parse_args` (jshell.cpp): the argument vector of a builtin, with the
    command name skipped, sorted into single-character flags, `--key[=value]`
    long flags and positional words. */
module Args {
  import opened Text

  /** The source keeps `std::map<char, bool>` whose entries are only ever set
      to true, so a set of characters says the same. */
  datatype Parsed = Parsed(flags: set<char>, longFlags: map<String, String>, positional: seq<String>)

  const NoArgs := Parsed({}, map[], [])

  /** How one word is read. */
  datatype Kind = Long(key: String, value: String) | Short(letters: String) | Positional

  predicate IsLongWord(w: String) {
    |w| >= 2 && w[0] == '-' && w[1] == '-'
  }

  predicate IsShortWord(w: String) {
    |w| > 1 && w[0] == '-' && !IsLongWord(w)
  }

  /** A word is positional when it is empty, a lone `-`, or does not start with `-`. */
  predicate IsPositional(w: String) {
    w == [] || w[0] != '-' || w == "-"
  }

  function Classify(w: String): (k: Kind)
    ensures k.Positional? <==> IsPositional(w)
    ensures k.Short? <==> IsShortWord(w)
    ensures k.Short? ==> k.letters == w[1..]
    ensures k.Long? <==> IsLongWord(w)
    ensures k.Long? && '=' in w ==>
      var e := Find(w, '=').value;
      2 <= e && k.key == w[2..e] && k.value == w[e + 1..] && '=' !in k.key
    ensures k.Long? && '=' !in w ==> k.key == w[2..] && k.value == []
  {
    if IsLongWord(w) then
      match Find(w, '=')
      case Some(e) =>
        assert w[2..e] == w[..e][2..];
        Long(w[2..e], w[e + 1..])
      case None => Long(w[2..], [])
    else if |w| > 1 && w[0] == '-' then Short(w[1..])
    else Positional
  }

  /** One iteration of the loop: later long flags overwrite earlier ones. */
  function Absorb(p: Parsed, w: String): Parsed {
    match Classify(w)
    case Long(k, v) => p.(longFlags := p.longFlags[k := v])
    case Short(letters) => p.(flags := p.flags + set c | c in letters)
    case Positional => p.(positional := p.positional + [w])
  }

  /** The loop over the words after the command name, left to right. */
  function ParseWords(ws: seq<String>): Parsed {
    if ws == [] then NoArgs else Absorb(ParseWords(ws[..|ws| - 1]), ws[|ws| - 1])
  }

  /** `parse_args`: `args[0]` is the command name and is skipped. */
  function ParseArgs(args: seq<String>): (p: Parsed)
    ensures |args| <= 1 ==> p == NoArgs
  {
    if args == [] then NoArgs else ParseWords(args[1..])
  }

  /** The positional words of a list, in order. */
  function Positionals(ws: seq<String>): seq<String> {
    if ws == [] then []
    else (if IsPositional(ws[0]) then [ws[0]] else []) + Positionals(ws[1..])
  }

  lemma {:induction false} PositionalsSnoc(ws: seq<String>, w: String)
    ensures Positionals(ws + [w]) == Positionals(ws) + (if IsPositional(w) then [w] else [])
  {
    if ws == [] {
      assert ws + [w] == [w];
    } else {
      assert (ws + [w])[1..] == ws[1..] + [w];
      PositionalsSnoc(ws[1..], w);
    }
  }

  /** The positional list keeps exactly the positional words, in their order. */
  lemma {:induction false} PositionalInOrder(ws: seq<String>)
    ensures ParseWords(ws).positional == Positionals(ws)
  {
    if ws != [] {
      var init := ws[..|ws| - 1];
      PositionalInOrder(init);
      PositionalsSnoc(init, ws[|ws| - 1]);
      assert init + [ws[|ws| - 1]] == ws;
    }
  }

  /** A flag is set exactly when some short-flag word lists it. */
  lemma {:induction false} ShortFlagMembership(ws: seq<String>, c: char)
    ensures c in ParseWords(ws).flags <==>
      exists i :: 0 <= i < |ws| && IsShortWord(ws[i]) && c in ws[i][1..]
  {
    if ws != [] {
      var init := ws[..|ws| - 1];
      var w := ws[|ws| - 1];
      ShortFlagMembership(init, c);
      if c in ParseWords(ws).flags && c !in ParseWords(init).flags {
        assert IsShortWord(w) && c in w[1..];
      }
      if exists i :: 0 <= i < |ws| && IsShortWord(ws[i]) && c in ws[i][1..] {
        var i :| 0 <= i < |ws| && IsShortWord(ws[i]) && c in ws[i][1..];
        if i < |ws| - 1 {
          assert init[i] == ws[i];
        }
      }
    }
  }

  /** A long key's value is the one given by the last word naming that key;
      words naming other keys or other kinds leave it alone. */
  lemma {:induction false} LastLongFlagWins(ws: seq<String>, i: nat)
    requires i < |ws| && Classify(ws[i]).Long?
    requires forall j :: i < j < |ws| ==>
      !(Classify(ws[j]).Long? && Classify(ws[j]).key == Classify(ws[i]).key)
    ensures Classify(ws[i]).key in ParseWords(ws).longFlags
    ensures ParseWords(ws).longFlags[Classify(ws[i]).key] == Classify(ws[i]).value
  {
    var init := ws[..|ws| - 1];
    if i < |ws| - 1 {
      assert init[i] == ws[i];
      forall j | i < j < |init|
        ensures !(Classify(init[j]).Long? && Classify(init[j]).key == Classify(ws[i]).key)
      {
        assert init[j] == ws[j];
      }
      LastLongFlagWins(init, i);
    }
  }

  /** A key never named by a long word is absent. */
  lemma {:induction false} UnnamedKeyAbsent(ws: seq<String>, key: String)
    requires forall j :: 0 <= j < |ws| ==> !(Classify(ws[j]).Long? && Classify(ws[j]).key == key)
    ensures key !in ParseWords(ws).longFlags
  {
    if ws != [] {
      var init := ws[..|ws| - 1];
      forall j | 0 <= j < |init|
        ensures !(Classify(init[j]).Long? && Classify(init[j]).key == key)
      {
        assert init[j] == ws[j];
      }
      UnnamedKeyAbsent(init, key);
    }
  }
}

=== FILE: builtins.dfy ===
/** The builtin table of jshell.cpp and the lookup `execute` performs on it:
    the first entry whose name equals the command name wins. */
module Builtins {
  import opened Outcomes
  import opened Text

  /** The handler functions; several table names share one handler. */
  datatype Handler =
    | Cd | Help | ExitShell | Pwd | Env | SetVar | UnsetVar | History | Source
    | Ls | Cat | Echo | Mkdir | Rm | Cls | Alias | Unalias | Touch | Cp | Mv
    | Grep | FindFiles | Which | Ps | KillProc | Jobs | Fg | Bg | Code | Edit
    | Vi | Version

  datatype Entry = Entry(name: String, handler: Handler)

  /** The table in source order. */
  const Table: seq<Entry> := [
    Entry("cd", Cd), Entry("help", Help), Entry("exit", ExitShell),
    Entry("pwd", Pwd), Entry("env", Env), Entry("set", SetVar),
    Entry("unset", UnsetVar), Entry("history", History), Entry("source", Source),
    Entry("ls", Ls), Entry("dir", Ls), Entry("cat", Cat), Entry("echo", Echo),
    Entry("mkdir", Mkdir), Entry("rm", Rm), Entry("del", Rm), Entry("cls", Cls),
    Entry("clear", Cls), Entry("alias", Alias), Entry("unalias", Unalias),
    Entry("touch", Touch), Entry("cp", Cp), Entry("copy", Cp), Entry("mv", Mv),
    Entry("move", Mv), Entry("grep", Grep), Entry("find", FindFiles),
    Entry("which", Which), Entry("ps", Ps), Entry("kill", KillProc),
    Entry("jobs", Jobs), Entry("fg", Fg), Entry("bg", Bg), Entry("open", Code),
    Entry("edit", Edit), Entry("vi", Vi), Entry("nano", Vi), Entry("version", Version)
  ]

  /** Index of the first entry at or after `from` named `name`: the range-for
      loop stops at the first match. */
  function FirstMatch(table: seq<Entry>, name: String, from: nat): (r: Option<nat>)
    requires from <= |table|
    ensures r.Some? ==> from <= r.value < |table|
    decreases |table| - from
  {
    if from == |table| then None
    else if table[from].name == name then Some(from)
    else FirstMatch(table, name, from + 1)
  }

  /** The scan finds the first entry with the name, and finds nothing only
      when no entry has it. */
  lemma {:induction false} FirstMatchSpec(table: seq<Entry>, name: String, from: nat)
    requires from <= |table|
    ensures FirstMatch(table, name, from).None? <==>
      forall i :: from <= i < |table| ==> table[i].name != name
    ensures FirstMatch(table, name, from).Some? ==>
      var k := FirstMatch(table, name, from).value;
      table[k].name == name && forall j :: from <= j < k ==> table[j].name != name
    decreases |table| - from
  {
    if from < |table| && table[from].name != name {
      FirstMatchSpec(table, name, from + 1);
    }
  }

  /** The builtin a command name selects, None for an external program. */
  function FindBuiltin(name: String): Option<Handler> {
    match FirstMatch(Table, name, 0)
    case Some(i) => Some(Table[i].handler)
    case None => None
  }

  /** Entry `i` carries `name` and no earlier entry does. */
  predicate FirstEntryNamed(i: int, name: String) {
    0 <= i < |Table| && Table[i].name == name && forall j :: 0 <= j < i ==> Table[j].name != name
  }

  /** FindBuiltin answers with the handler of the first entry of that name. */
  lemma FindBuiltinSpec(name: String)
    ensures FindBuiltin(name).None? <==> forall i :: 0 <= i < |Table| ==> Table[i].name != name
    ensures FindBuiltin(name).Some? ==>
      exists i :: FirstEntryNamed(i, name) && Table[i].handler == FindBuiltin(name).value
  {
    FirstMatchSpec(Table, name, 0);
  }

  predicate NamesDistinct(table: seq<Entry>) {
    forall i, j :: 0 <= i < j < |table| ==> table[i].name != table[j].name
  }

  /** In a table without repeated names the first match is the only one, so
      every entry is reached by its own name. */
  lemma EntryReached(table: seq<Entry>, i: nat)
    requires NamesDistinct(table) && i < |table|
    ensures FirstMatch(table, table[i].name, 0) == Some(i)
  {
    FirstMatchSpec(table, table[i].name, 0);
  }
}

=== FILE: completion.dfy ===
/** Two helpers behind command lookup and tab completion (jshell.cpp):
    splitting PATH into directories, and the longest common prefix of the
    completion candidates. */
module Completion {
  import opened Outcomes
  import opened Text

  /** The non-empty pieces of a list, in order. */
  function NonEmpty(ps: seq<String>): (r: seq<String>)
    ensures forall k :: 0 <= k < |r| ==> r[k] != []
    ensures Concat(r) == Concat(ps)
  {
    if ps == [] then []
    else
      var rest := NonEmpty(ps[1..]);
      if ps[0] == [] then rest else [ps[0]] + rest
  }

  /** `get_path_directories` over the value of PATH: the `;`-separated pieces
      std::getline yields, with empty ones dropped. */
  function PathDirectories(path: String): (r: seq<String>)
    ensures forall k :: 0 <= k < |r| ==> r[k] != [] && ';' !in r[k]
  {
    var ps := GetlineSplit(path, ';');
    var r := NonEmpty(ps);
    assert forall k :: 0 <= k < |r| ==> r[k] in ps by {
      NonEmptyKeeps(ps);
    }
    r
  }

  lemma {:induction false} NonEmptyKeeps(ps: seq<String>)
    ensures forall k :: 0 <= k < |NonEmpty(ps)| ==> NonEmpty(ps)[k] in ps
  {
    if ps != [] {
      NonEmptyKeeps(ps[1..]);
    }
  }

  /** Directories joined with `;` come back out of PATH one for one. */
  lemma PathDirectoriesRoundTrip(ds: seq<String>)
    requires forall k :: 0 <= k < |ds| ==> ds[k] != [] && ';' !in ds[k]
    ensures PathDirectories(JoinWith(ds, ';')) == ds
  {
    if ds != [] {
      SplitOnJoin(ds, ';');
      NonEmptyAll(ds);
    }
  }

  lemma {:induction false} NonEmptyAll(ps: seq<String>)
    requires forall k :: 0 <= k < |ps| ==> ps[k] != []
    ensures NonEmpty(ps) == ps
  {
    if ps != [] {
      NonEmptyAll(ps[1..]);
      assert ps == [ps[0]] + ps[1..];
    }
  }

  /** The directories are exactly PATH's characters other than `;`, in order. */
  lemma PathDirectoriesCoverPath(path: String)
    ensures Concat(PathDirectories(path)) == Remove(path, ';')
  {
    ConcatSplitOn(path, ';');
    ConcatGetlineSplit(path, ';');
  }

  /** Dropping the empty last piece does not change the concatenation. */
  lemma ConcatGetlineSplit(s: String, d: char)
    ensures Concat(GetlineSplit(s, d)) == Concat(SplitOn(s, d))
  {
    var p := SplitOn(s, d);
    if p[|p| - 1] == [] {
      var init := p[..|p| - 1];
      assert p == init + [[]];
      ConcatAppend(init, [[]]);
      assert Concat([[]]) == [];
    }
  }

  lemma {:induction false} ConcatSplitOn(s: String, d: char)
    ensures Concat(SplitOn(s, d)) == Remove(s, d)
    decreases |s|
  {
    match Find(s, d)
    case None =>
      RemoveAbsent(s, d);
    case Some(i) =>
      SplitOnStep(s, d, i);
      RemoveStep(s, d, i);
      ConcatSplitOn(s[i + 1..], d);
  }

  lemma SplitOnStep(s: String, d: char, i: nat)
    requires Find(s, d) == Some(i)
    ensures Concat(SplitOn(s, d)) == s[..i] + Concat(SplitOn(s[i + 1..], d))
  {
    var rest := SplitOn(s[i + 1..], d);
    assert SplitOn(s, d) == [s[..i]] + rest;
    assert ([s[..i]] + rest)[1..] == rest;
  }

  lemma RemoveStep(s: String, d: char, i: nat)
    requires i < |s| && s[i] == d && d !in s[..i]
    ensures Remove(s, d) == s[..i] + Remove(s[i + 1..], d)
  {
    var head, tail := s[..i], s[i + 1..];
    assert s == (head + [d]) + tail;
    RemoveAppend(head + [d], tail, d);
    RemoveAppend(head, [d], d);
    assert Remove([d], d) == [] by {
      assert [d][1..] == [];
    }
    RemoveAbsent(head, d);
  }

  lemma {:induction false} RemoveAbsent(s: String, c: char)
    requires c !in s
    ensures Remove(s, c) == s
  {
    if s != [] {
      RemoveAbsent(s[1..], c);
    }
  }

  /** The prefix `std::mismatch` leaves of two strings. */
  function CommonPrefix(a: String, b: String): (r: String)
    ensures IsPrefix(r, a) && IsPrefix(r, b)
  {
    if a == [] || b == [] || a[0] != b[0] then []
    else [a[0]] + CommonPrefix(a[1..], b[1..])
  }

  /** Any common prefix of the two is a prefix of CommonPrefix: it is the
      longest one. */
  lemma {:induction false} CommonPrefixLongest(a: String, b: String, p: String)
    requires IsPrefix(p, a) && IsPrefix(p, b)
    ensures IsPrefix(p, CommonPrefix(a, b))
  {
    if p != [] {
      assert a[0] == p[0] == b[0];
      assert a[1..][..|p| - 1] == p[1..] && b[1..][..|p| - 1] == p[1..];
      CommonPrefixLongest(a[1..], b[1..], p[1..]);
      assert p == [p[0]] + p[1..];
    }
  }

  /** std::accumulate over the remaining strings. */
  function Accumulate(prefix: String, strs: seq<String>): String
    decreases |strs|
  {
    if strs == [] then prefix else Accumulate(CommonPrefix(prefix, strs[0]), strs[1..])
  }

  /** `find_longest_common_prefix`: "" for no strings. */
  function LongestCommonPrefix(strs: seq<String>): String {
    if strs == [] then [] else Accumulate(strs[0], strs[1..])
  }

  /** The result is a prefix of every string. */
  lemma {:induction false} AccumulateIsCommon(prefix: String, strs: seq<String>)
    ensures IsPrefix(Accumulate(prefix, strs), prefix)
    ensures forall k :: 0 <= k < |strs| ==> IsPrefix(Accumulate(prefix, strs), strs[k])
    decreases |strs|
  {
    if strs != [] {
      var next := CommonPrefix(prefix, strs[0]);
      AccumulateIsCommon(next, strs[1..]);
      var r := Accumulate(prefix, strs);
      assert r == next[..|r|];
      forall k | 0 <= k < |strs|
        ensures IsPrefix(r, strs[k])
      {
        if k > 0 {
          assert strs[1..][k - 1] == strs[k];
        }
      }
    }
  }

  /** Every prefix common to all strings is a prefix of the result. */
  lemma {:induction false} AccumulateIsLongest(prefix: String, strs: seq<String>, p: String)
    requires IsPrefix(p, prefix)
    requires forall k :: 0 <= k < |strs| ==> IsPrefix(p, strs[k])
    ensures IsPrefix(p, Accumulate(prefix, strs))
    decreases |strs|
  {
    if strs != [] {
      CommonPrefixLongest(prefix, strs[0], p);
      forall k | 0 <= k < |strs[1..]|
        ensures IsPrefix(p, strs[1..][k])
      {
        assert strs[1..][k] == strs[k + 1];
      }
      AccumulateIsLongest(CommonPrefix(prefix, strs[0]), strs[1..], p);
    }
  }

  /** The longest common prefix: common to all, and extended by no other. */
  lemma LongestCommonPrefixSpec(strs: seq<String>, p: String)
    ensures forall k :: 0 <= k < |strs| ==> IsPrefix(LongestCommonPrefix(strs), strs[k])
    ensures (forall k :: 0 <= k < |strs| ==> IsPrefix(p, strs[k])) && strs != [] ==>
      IsPrefix(p, LongestCommonPrefix(strs))
  {
    if strs != [] {
      AccumulateIsCommon(strs[0], strs[1..]);
      forall k | 0 <= k < |strs|
        ensures IsPrefix(LongestCommonPrefix(strs), strs[k])
      {
        if k > 0 {
          assert strs[1..][k - 1] == strs[k];
        }
      }
      if forall k :: 0 <= k < |strs| ==> IsPrefix(p, strs[k]) {
        forall k | 0 <= k < |strs[1..]|
          ensures IsPrefix(p, strs[1..][k])
        {
          assert strs[1..][k] == strs[k + 1];
        }
        AccumulateIsLongest(strs[0], strs[1..], p);
      }
    }
  }
}

=== FILE: config.dfy ===
/** The settings read from config.ini by `load_config` (jshell.cpp): one
    `key=value` per line, unknown keys, comments and lines without `=`
    ignored, the last assignment of a key winning. */
module Config {
  import opened Outcomes
  import opened Text
  import opened Numbers

  datatype Settings = Settings(
    promptFormat: String,
    enableColors: bool,
    autoComplete: bool,
    saveHistory: bool,
    maxHistory: nat,
    historyFile: String)

  /** The defaults of the Configuration record. */
  const Defaults := Settings("[{cwd}] > ", true, true, true, 1000, ".jshell_history")

  /** A switch is on only for the exact texts `true` and `1`. */
  predicate IsOn(v: String) {
    v == "true" || v == "1"
  }

  /** Lines that are skipped before any key is looked at. */
  predicate Skipped(line: String) {
    line == [] || line[0] == '#' || '=' !in line
  }

  /** One line of the file. The key is everything before the first `=`, the
      value everything after it, both untrimmed. A max_history value that
      std::stoul rejects leaves the setting as it was. */
  function ApplyLine(c: Settings, line: String): (r: Settings)
    ensures Skipped(line) ==> r == c
    ensures r.historyFile == c.historyFile
  {
    if line == [] || line[0] == '#' then c
    else match Find(line, '=')
      case None => c
      case Some(e) =>
        var key := line[..e];
        var value := line[e + 1..];
        if key == "prompt_format" then c.(promptFormat := value)
        else if key == "enable_colors" then c.(enableColors := IsOn(value))
        else if key == "auto_complete" then c.(autoComplete := IsOn(value))
        else if key == "save_history" then c.(saveHistory := IsOn(value))
        else if key == "max_history" then
          match Stoul(value)
          case Ok(n) => c.(maxHistory := n)
          case Fail(_) => c
        else c
  }

  /** The lines of the file, first to last. */
  function ApplyLines(c: Settings, lines: seq<String>): Settings
    decreases |lines|
  {
    if lines == [] then c else ApplyLines(ApplyLine(c, lines[0]), lines[1..])
  }

  /** Reading two parts of a file one after the other is reading the whole. */
  lemma {:induction false} ApplyLinesAppend(c: Settings, a: seq<String>, b: seq<String>)
    ensures ApplyLines(c, a + b) == ApplyLines(ApplyLines(c, a), b)
    decreases |a|
  {
    if a == [] {
      assert a + b == b;
    } else {
      assert (a + b)[1..] == a[1..] + b;
      ApplyLinesAppend(ApplyLine(c, a[0]), a[1..], b);
    }
  }

  /** Reading a rendered `key=value` line for a setting gives back the value:
      prompt_format keeps any text (even one holding `=`), and max_history any
      number std::stoul can hold. */
  lemma PromptLineRoundTrip(c: Settings, v: String)
    ensures ApplyLine(c, "prompt_format=" + v) == c.(promptFormat := v)
  {
    var line := "prompt_format=" + v;
    assert forall j :: 0 <= j < 13 ==> line[j] != '=';
    FindFromReaches(line, '=', 0, 13);
    assert line[..13] == "prompt_format";
    assert line[14..] == v;
  }

  lemma MaxHistoryLineRoundTrip(c: Settings, n: nat)
    requires n <= UlongMax
    ensures ApplyLine(c, "max_history=" + ShowNat(n)) == c.(maxHistory := n)
  {
    var line := "max_history=" + ShowNat(n);
    assert forall j :: 0 <= j < 11 ==> line[j] != '=';
    FindFromReaches(line, '=', 0, 11);
    assert line[..11] == "max_history";
    assert line[12..] == ShowNat(n);
    StoulShowNat(n);
  }

  /** A line `key=value` whose key holds no `=` splits at the `=` after the
      key. */
  lemma SplitsAfterKey(key: String, v: String)
    requires key != [] && '=' !in key
    ensures var line := key + "=" + v;
      && Find(line, '=') == Some(|key|)
      && line[..|key|] == key && line[|key| + 1..] == v
  {
    var line := key + "=" + v;
    assert forall j :: 0 <= j < |key| ==> line[j] == key[j];
    FindFromReaches(line, '=', 0, |key|);
  }

  /** The three switches are on exactly when their value is `true` or `1`;
      any other text, `TRUE` and `yes` included, turns them off. */
  lemma SwitchLinesRoundTrip(c: Settings, v: String)
    ensures ApplyLine(c, "enable_colors=" + v) == c.(enableColors := IsOn(v))
    ensures ApplyLine(c, "auto_complete=" + v) == c.(autoComplete := IsOn(v))
    ensures ApplyLine(c, "save_history=" + v) == c.(saveHistory := IsOn(v))
  {
    ColorsLine(c, v);
    CompletionLine(c, v);
    SaveLine(c, v);
  }

  lemma ColorsLine(c: Settings, v: String)
    ensures ApplyLine(c, "enable_colors=" + v) == c.(enableColors := IsOn(v))
  {
    SplitsAfterKey("enable_colors", v);
    assert "enable_colors" + "=" + v == "enable_colors=" + v;
  }

  lemma CompletionLine(c: Settings, v: String)
    ensures ApplyLine(c, "auto_complete=" + v) == c.(autoComplete := IsOn(v))
  {
    SplitsAfterKey("auto_complete", v);
    assert "auto_complete" + "=" + v == "auto_complete=" + v;
  }

  lemma SaveLine(c: Settings, v: String)
    ensures ApplyLine(c, "save_history=" + v) == c.(saveHistory := IsOn(v))
  {
    SplitsAfterKey("save_history", v);
    assert "save_history" + "=" + v == "save_history=" + v;
  }

  /** A key written with spaces around the `=` is a different key and is
      ignored. */
  lemma SpacedKeyIgnored(c: Settings, v: String)
    ensures ApplyLine(c, "max_history = " + v) == c
  {
    var line := "max_history = " + v;
    assert forall j :: 0 <= j < 12 ==> line[j] != '=';
    FindFromReaches(line, '=', 0, 12);
    assert line[..12] == "max_history ";
  }
}

=== FILE: execute.dfy ===
/** `execute` (jshell.cpp): alias expansion of the first command, dispatch of
    a single command to a builtin or to `launch_process`, and the wiring and
    exit code of a pipeline. What a stage does when it runs is a parameter:
    `run(i, stage)` is the code stage i returns. */
module Execute {
  import opened Outcomes
  import opened Text
  import opened Tokenizer
  import opened Expansion
  import opened Parser
  import opened Builtins

  /** The first command's head replaced by its alias's words, followed by the
      command's remaining words. Only the first command, only once: the new
      head is not looked up again, and the alias text is only tokenized, so
      redirection markers in it become ordinary words. */
  function ExpandAlias(cmds: seq<Command>, aliases: Table): (r: seq<Command>)
    requires cmds != [] && cmds[0].args != []
    ensures |r| == |cmds| && r[1..] == cmds[1..]
    ensures r[0] == cmds[0].(args := r[0].args)
    ensures cmds[0].args[0] !in aliases ==> r == cmds
    ensures cmds[0].args[0] in aliases ==>
      r[0].args == Tokenize(aliases[cmds[0].args[0]]) + cmds[0].args[1..]
  {
    var head := cmds[0].args[0];
    if head in aliases then
      cmds[0 := cmds[0].(args := Tokenize(aliases[head]) + cmds[0].args[1..])]
    else cmds
  }

  /** Where a stage's standard input or output goes: the console, or one
      side of pipe k. */
  datatype Endpoint = Inherit | PipeRead(k: nat) | PipeWrite(k: nat)

  /** One stage as it is started: the command, the builtin it selects (None
      for an external program), its wiring, and whether it is given the
      shell state. A builtin always is; `launch_process` is given it only for
      a single command, so only then can a background launch become a job. */
  datatype Stage = Stage(command: Command, builtin: Option<Handler>, input: Endpoint, output: Endpoint, withState: bool)

  /** A command that redirects nothing and does not ask for the background. */
  predicate Unredirected(c: Command) {
    && c.inputFile == [] && c.outputFile == [] && c.errorFile == []
    && !c.appendOutput && !c.appendError && !c.background
  }

  /** What a builtin is handed: its words and nothing else. The command's
      redirection and its `&` are never looked at, so `pwd > out` prints on
      the console and `cd x &` runs at once. */
  function ArgsOnly(c: Command): (d: Command)
    ensures d.args == c.args && Unredirected(d)
    ensures Unredirected(c) ==> d == c
  {
    Command(c.args, [], [], [], false, false, false)
  }

  /** A single command: the builtin of its head with its words alone, or
      otherwise `launch_process` on the whole command; either way on the
      console and with the shell state. */
  function SingleStage(c: Command): (s: Stage)
    requires c.args != []
    ensures s.builtin == FindBuiltin(c.args[0])
    ensures s.input == Inherit && s.output == Inherit && s.withState
    ensures s.command.args == c.args
    ensures s.builtin.None? ==> s.command == c
    ensures s.builtin.Some? ==> Unredirected(s.command)
  {
    var b := FindBuiltin(c.args[0]);
    if b.Some? then Stage(ArgsOnly(c), b, Inherit, Inherit, true)
    else Stage(c, None, Inherit, Inherit, true)
  }

  /** Stage i of a pipeline. An external program reads pipe i - 1 and writes
      pipe i, the first reading and the last writing the console. A builtin
      is called directly with the shell state and its words alone, under the
      pipeline's mutex, and the pipe handles are not passed to it: it reads
      and writes the console, and its neighbours' pipes get no writer or no
      reader from it. */
  function PipelineStage(cmds: seq<Command>, i: nat): (s: Stage)
    requires i < |cmds| && cmds[i].args != []
    ensures s.builtin == FindBuiltin(cmds[i].args[0]) && s.command.args == cmds[i].args
    ensures s.builtin.None? ==> s.command == cmds[i]
    ensures s.builtin.Some? ==> Unredirected(s.command)
    ensures s.withState <==> s.builtin.Some?
    ensures !s.input.PipeWrite? && !s.output.PipeRead?
    ensures s.input == Inherit <==> i == 0 || s.builtin.Some?
    ensures s.output == Inherit <==> i == |cmds| - 1 || s.builtin.Some?
    ensures forall k: nat ::
      s.input == PipeRead(k) <==> k + 1 == i && s.builtin.None?
    ensures forall k: nat ::
      s.output == PipeWrite(k) <==> k == i && k + 1 < |cmds| && s.builtin.None?
  {
    var b := FindBuiltin(cmds[i].args[0]);
    if b.Some? then Stage(ArgsOnly(cmds[i]), b, Inherit, Inherit, true)
    else
      Stage(cmds[i], None,
        if i == 0 then Inherit else PipeRead(i - 1),
        if i == |cmds| - 1 then Inherit else PipeWrite(i),
        false)
  }

  predicate AllHaveArgs(cmds: seq<Command>) {
    forall i :: 0 <= i < |cmds| ==> cmds[i].args != []
  }

  /** The stages of a pipeline of two or more commands: no two stages write
      the same pipe or read the same pipe, and only the pipes that were
      created (one fewer than the stages) are used. */
  function PipelineStages(cmds: seq<Command>): (ss: seq<Stage>)
    requires AllHaveArgs(cmds)
    ensures |ss| == |cmds|
    ensures forall i :: 0 <= i < |cmds| ==> ss[i] == PipelineStage(cmds, i)
    ensures forall i, j :: 0 <= i < j < |ss| && ss[i].output.PipeWrite? ==> ss[j].output != ss[i].output
    ensures forall i, j :: 0 <= i < j < |ss| && ss[i].input.PipeRead? ==> ss[j].input != ss[i].input
    ensures forall i :: 0 <= i < |ss| && ss[i].output.PipeWrite? ==> ss[i].output.k + 1 < |ss|
    ensures forall i :: 0 <= i < |ss| && ss[i].input.PipeRead? ==> ss[i].input.k + 1 < |ss|
  {
    seq(|cmds|, i requires 0 <= i < |cmds| => PipelineStage(cmds, i))
  }

  /** `execute`. An empty pipeline or an empty first command gives 0. A
      command left without words by its alias is then indexed at args[0],
      as is an empty later stage of a pipeline: undefined behaviour. One
      command runs as the first builtin of its name or through
      `launch_process` with the shell state; a pipeline whose pipes cannot
      all be created gives 1; otherwise every stage runs and the last
      stage's code is the result. */
  function Execute(cmds: seq<Command>, aliases: Table, pipesCreated: bool,
                   run: (nat, Stage) -> int): (r: Result<int>)
    ensures cmds == [] || cmds[0].args == [] ==> r == Ok(0)
    ensures r == Fail(EmptyArgsIndexed) || r.Ok?
    ensures |cmds| == 1 && cmds[0].args != [] && cmds[0].args[0] !in aliases ==>
      r == Ok(run(0, SingleStage(cmds[0])))
    ensures |cmds| == 1 && cmds[0].args != [] ==>
      var cs := ExpandAlias(cmds, aliases);
      && (r == Fail(EmptyArgsIndexed) <==> cs[0].args == [])
      && (cs[0].args != [] ==> r == Ok(run(0, SingleStage(cs[0]))))
    ensures |cmds| >= 2 && cmds[0].args != [] && !pipesCreated ==> r == Ok(1)
    ensures |cmds| >= 2 && cmds[0].args != [] && pipesCreated ==>
      var cs := ExpandAlias(cmds, aliases);
      && (r == Fail(EmptyArgsIndexed) <==> !AllHaveArgs(cs))
      && (AllHaveArgs(cs) ==> r == Ok(run(|cs| - 1, PipelineStage(cs, |cs| - 1))))
  {
    if cmds == [] || cmds[0].args == [] then Ok(0)
    else
      var cs := ExpandAlias(cmds, aliases);
      if |cs| == 1 then
        if cs[0].args == [] then Fail(EmptyArgsIndexed)
        else Ok(run(0, SingleStage(cs[0])))
      else if !pipesCreated then Ok(1)
      else if !AllHaveArgs(cs) then Fail(EmptyArgsIndexed)
      else
        var ss := PipelineStages(cs);
        Ok(run(|cs| - 1, ss[|cs| - 1]))
  }

  /** Pipe k is written by stage k and read by stage k + 1, and by no other
      stage; a builtin at either end leaves that end of the pipe unused. */
  lemma PipesConnectNeighbours(cmds: seq<Command>, k: nat, i: nat)
    requires AllHaveArgs(cmds) && i < |cmds|
    ensures PipelineStages(cmds)[i].output == PipeWrite(k) <==>
      i == k && k + 1 < |cmds| && FindBuiltin(cmds[i].args[0]).None?
    ensures PipelineStages(cmds)[i].input == PipeRead(k) <==>
      i == k + 1 && FindBuiltin(cmds[i].args[0]).None?
  {
  }

  /** A builtin in a pipeline writes to the console: the pipe after it has
      no writer, and it is given the shell state, so `set X 1 | more`
      changes the shell's variables. */
  lemma BuiltinStageOnConsole(cmds: seq<Command>, k: nat)
    requires AllHaveArgs(cmds) && k + 1 < |cmds| && FindBuiltin(cmds[k].args[0]).Some?
    ensures PipelineStages(cmds)[k].output == Inherit && PipelineStages(cmds)[k].withState
    ensures forall i :: 0 <= i < |cmds| ==> PipelineStages(cmds)[i].output != PipeWrite(k)
  {
  }

  /** The result of a pipeline is the last stage's code: stages before it
      can return anything without changing it. */
  lemma LastStageDecides(cmds: seq<Command>, aliases: Table,
                         run1: (nat, Stage) -> int, run2: (nat, Stage) -> int)
    requires |cmds| >= 2 && cmds[0].args != []
    requires var cs := ExpandAlias(cmds, aliases);
      AllHaveArgs(cs) && run1(|cs| - 1, PipelineStage(cs, |cs| - 1)) == run2(|cs| - 1, PipelineStage(cs, |cs| - 1))
    ensures Execute(cmds, aliases, true, run1) == Execute(cmds, aliases, true, run2)
    ensures Execute(cmds, aliases, true, run1).Ok?
  {
  }

  /** `alias ll='ls -l'` with `ls` itself an alias: `ll x` runs `ls -l x`,
      without expanding `ls` again. */
  lemma AliasExpandedOnce(c: Command)
    requires c.args == ["ll", "x"]
    ensures var aliases := map["ll" := "ls -l", "ls" := "dir /w"];
      ExpandAlias([c], aliases)[0].args == ["ls", "-l", "x"]
  {
    var ws := ["ls", "-l"];
    assert JoinWith(ws, ' ') == "ls -l";
    assert Plain(ws[0]) && Plain(ws[1]);
    TokenizeJoined(ws);
  }

  /** `alias e=""` and then `e`: the rewritten command has no words and
      the builtin search indexes args[0] of an empty vector. */
  lemma EmptyAliasUndefined(c: Command, aliases: Table, pipesCreated: bool, run: (nat, Stage) -> int)
    requires |c.args| == 1 && c.args[0] in aliases && Tokenize(aliases[c.args[0]]) == []
    ensures Execute([c], aliases, pipesCreated, run) == Fail(EmptyArgsIndexed)
  {
  }

  /** `ll x` with `alias ll='ls -l'` is dispatched on the name `ls`: to its
      builtin if `ls` has one, otherwise to a launch of `ls -l x`. */
  lemma AliasedHeadDispatched(c: Command, run: (nat, Stage) -> int)
    requires c.args == ["ll", "x"]
    ensures var aliases := map["ll" := "ls -l", "ls" := "dir /w"];
      var d := c.(args := ["ls", "-l", "x"]);
      Execute([c], aliases, false, run) == Ok(run(0, SingleStage(d)))
  {
    AliasExpandedOnce(c);
  }

  /** An alias whose text holds `>` does not redirect: the marker and the
      file name become arguments, and the command's output file is kept. */
  lemma AliasTextNotParsed(c: Command)
    requires c.args == ["save"] && c.outputFile == []
    ensures var r := ExpandAlias([c], map["save" := "echo hi > out"])[0];
      r.args == ["echo", "hi", ">", "out"] && r.outputFile == []
  {
    var ws := ["echo", "hi", ">", "out"];
    assert JoinWith(ws, ' ') == "echo hi > out";
    assert forall k :: 0 <= k < |ws| ==> Plain(ws[k]);
    TokenizeJoined(ws);
  }

  /** A builtin's result does not depend on the redirection or the `&` of
      its command: `cd x > out` and `cd x` do the same thing. */
  lemma BuiltinIgnoresRedirection(c: Command, d: Command, aliases: Table,
                                  pipesCreated: bool, run: (nat, Stage) -> int)
    requires c.args == d.args && c.args != []
    requires var cs := ExpandAlias([c], aliases);
      cs[0].args != [] && FindBuiltin(cs[0].args[0]).Some?
    ensures Execute([c], aliases, pipesCreated, run) == Execute([d], aliases, pipesCreated, run)
  {
  }
}

=== FILE: expansion.dfy ===
/** Variable substitution (`substitute_variables`), leading-`~` expansion
    (`expand_path`) and the prompt's directory display (jshell.cpp).

    The source matches the regular expression
    `\$\{([^}]+)\}|\$([A-Za-z_][A-Za-z0-9_]*)` with repeated regex_search;
    here that is a left-to-right scanner that, at each `$`, tries the braced
    form first and the bare-name form second, exactly as the alternation does. */
module Expansion {
  import opened Outcomes
  import opened Text

  type Table = map<String, String>

  predicate IsNameStart(c: char) {
    ('A' <= c <= 'Z') || ('a' <= c <= 'z') || c == '_'
  }

  predicate IsNameChar(c: char) {
    IsNameStart(c) || ('0' <= c <= '9')
  }

  predicate IsName(s: String) {
    s != [] && IsNameStart(s[0]) && forall k :: 0 <= k < |s| ==> IsNameChar(s[k])
  }

  /** Length of the run of name characters that starts `s`. */
  function NameRun(s: String): (n: nat)
    ensures n <= |s|
    ensures forall k :: 0 <= k < n ==> IsNameChar(s[k])
    ensures n < |s| ==> !IsNameChar(s[n])
  {
    if s != [] && IsNameChar(s[0]) then 1 + NameRun(s[1..]) else 0
  }

  /** A match of the pattern at the start of the text: the variable name and
      how many characters the match spans. */
  datatype Reference = Reference(name: String, width: nat)

  /** `${X}`: X is the non-empty text up to the first `}`. */
  function BracedAt(s: String): (r: Option<Reference>)
    ensures r.Some? ==> 3 < r.value.width <= |s| && r.value.name != []
    ensures r.Some? ==> s[..2] == "${" && s[r.value.width - 1] == '}'
    ensures r.Some? ==> r.value.name == s[2..r.value.width - 1] && '}' !in r.value.name
  {
    if |s| >= 2 && s[0] == '$' && s[1] == '{' then
      match FindFrom(s, '}', 2)
      case Some(k) =>
        if k > 2 then
          assert forall j :: 2 <= j < k ==> s[2..k][j - 2] == s[j];
          Some(Reference(s[2..k], k + 1))
        else None
      case None => None
    else None
  }

  /** `$NAME`: the longest run of name characters after the `$`. */
  function NamedAt(s: String): (r: Option<Reference>)
    ensures r.Some? ==> 1 < r.value.width <= |s| && s[0] == '$'
    ensures r.Some? ==> r.value.name == s[1..r.value.width] && IsName(r.value.name)
    ensures r.Some? ==> r.value.width == |s| || !IsNameChar(s[r.value.width])
  {
    if |s| >= 2 && s[0] == '$' && IsNameStart(s[1]) then
      var n := NameRun(s[1..]);
      Some(Reference(s[1..1 + n], 1 + n))
    else None
  }

  /** The alternation: the braced form wins when both could match. */
  function MatchAt(s: String): (r: Option<Reference>)
    ensures r.Some? ==> s != [] && s[0] == '$' && 1 < r.value.width <= |s|
  {
    if BracedAt(s).Some? then BracedAt(s) else NamedAt(s)
  }

  /** A variable's value: the shell table first, then the environment, else "". */
  function Lookup(name: String, vars: Table, env: Table): (v: String)
    ensures name in vars ==> v == vars[name]
    ensures name !in vars && name in env ==> v == env[name]
    ensures name !in vars && name !in env ==> v == []
  {
    if name in vars then vars[name] else if name in env then env[name] else []
  }

  function Substitute(s: String, vars: Table, env: Table): String
    decreases |s|
  {
    if s == [] then []
    else match MatchAt(s)
      case Some(ref) => Lookup(ref.name, vars, env) + Substitute(s[ref.width..], vars, env)
      case None => [s[0]] + Substitute(s[1..], vars, env)
  }

  /** Some position of the text starts a match of the pattern. */
  predicate HasReference(s: String) {
    exists i :: 0 <= i < |s| && MatchAt(s[i..]).Some?
  }

  /** Text in which the pattern matches nowhere comes back unchanged. */
  lemma {:induction false} NoReferenceUnchanged(s: String, vars: Table, env: Table)
    requires !HasReference(s)
    ensures Substitute(s, vars, env) == s
    decreases |s|
  {
    if s != [] {
      assert s[0..] == s;
      assert MatchAt(s).None?;
      assert !HasReference(s[1..]) by {
        forall i | 0 <= i < |s[1..]|
          ensures MatchAt(s[1..][i..]).None?
        {
          assert s[1..][i..] == s[i + 1..];
        }
      }
      NoReferenceUnchanged(s[1..], vars, env);
    }
  }

  /** A text without `$` is left alone. */
  lemma NoDollarUnchanged(s: String, vars: Table, env: Table)
    requires '$' !in s
    ensures Substitute(s, vars, env) == s
  {
    forall i | 0 <= i < |s|
      ensures MatchAt(s[i..]).None?
    {
      assert s[i..][0] == s[i];
    }
    NoReferenceUnchanged(s, vars, env);
  }

  /** Scanning is left to right: a leading stretch without `$` is copied and
      the rest is substituted on its own. */
  lemma {:induction false} LiteralPrefix(a: String, b: String, vars: Table, env: Table)
    requires '$' !in a
    ensures Substitute(a + b, vars, env) == a + Substitute(b, vars, env)
    decreases |a|
  {
    if a == [] {
      assert a + b == b;
    } else {
      var s := a + b;
      assert s[0] == a[0] && s[0] != '$';
      assert MatchAt(s).None?;
      assert s[1..] == a[1..] + b;
      assert '$' !in a[1..];
      LiteralPrefix(a[1..], b, vars, env);
      assert Substitute(s, vars, env) == [a[0]] + Substitute(a[1..] + b, vars, env);
      assert [a[0]] + a[1..] == a;
    }
  }

  /** `$NAME` is replaced by the value, which is not scanned again: a value
      holding `$` comes out verbatim. */
  lemma NamedValueNotRescanned(name: String, rest: String, vars: Table, env: Table)
    requires IsName(name)
    requires rest == [] || !IsNameChar(rest[0])
    ensures Substitute(['$'] + name + rest, vars, env) ==
      Lookup(name, vars, env) + Substitute(rest, vars, env)
  {
    var s := ['$'] + name + rest;
    assert s[1] == name[0];
    assert BracedAt(s).None?;
    assert s[1..] == name + rest;
    NameRunOf(name, rest);
    assert s[1..1 + |name|] == name;
    assert s[1 + |name|..] == rest;
  }

  lemma {:induction false} NameRunOf(name: String, rest: String)
    requires forall k :: 0 <= k < |name| ==> IsNameChar(name[k])
    requires rest == [] || !IsNameChar(rest[0])
    ensures NameRun(name + rest) == |name|
    decreases |name|
  {
    if name == [] {
      assert name + rest == rest;
    } else {
      assert (name + rest)[1..] == name[1..] + rest;
      NameRunOf(name[1..], rest);
    }
  }

  /** `${X}` is replaced by the value of X, whatever X holds apart from `}`. */
  lemma BracedValueNotRescanned(x: String, rest: String, vars: Table, env: Table)
    requires x != [] && '}' !in x
    ensures Substitute(['$', '{'] + x + ['}'] + rest, vars, env) ==
      Lookup(x, vars, env) + Substitute(rest, vars, env)
  {
    var s := ['$', '{'] + x + ['}'] + rest;
    var k := 2 + |x|;
    assert s[k] == '}';
    assert forall j :: 2 <= j < k ==> s[j] == x[j - 2];
    assert FindFrom(s, '}', 2) == Some(k);
    assert s[2..k] == x;
    assert s[k + 1..] == rest;
  }

  /** expand_path: a leading `~` becomes the home directory when one is known. */
  function ExpandPath(path: String, home: String): (r: String)
    ensures r == [] <==> path == []
    ensures path != [] && path[0] == '~' && home != [] ==> IsPrefix(home, r)
    ensures path == [] || path[0] != '~' || home == [] ==> r == path
  {
    if path != [] && path[0] == '~' && home != [] then home + path[1..] else path
  }

  /** The prompt's directory: a current directory under home is shown with
      `~` in place of the home prefix. */
  function DisplayDirectory(cwd: String, home: String): (r: String)
    ensures home != [] && IsPrefix(home, cwd) ==> r != [] && r[0] == '~'
    ensures !(home != [] && IsPrefix(home, cwd)) ==> r == cwd
  {
    if home != [] && IsPrefix(home, cwd) then ['~'] + cwd[|home|..] else cwd
  }

  /** Displaying a directory and expanding it again gives the directory back,
      for directories under home and for any that do not start with `~`. */
  lemma DisplayThenExpand(cwd: String, home: String)
    requires home != []
    requires IsPrefix(home, cwd) || cwd == [] || cwd[0] != '~'
    ensures ExpandPath(DisplayDirectory(cwd, home), home) == cwd
  {
    if IsPrefix(home, cwd) {
      var d := DisplayDirectory(cwd, home);
      assert d[1..] == cwd[|home|..];
      assert home + cwd[|home|..] == cwd;
    }
  }

  /** Expanding a `~` path and displaying it again gives the `~` path back. */
  lemma ExpandThenDisplay(path: String, home: String)
    requires home != [] && path != [] && path[0] == '~'
    ensures DisplayDirectory(ExpandPath(path, home), home) == path
  {
    var e := ExpandPath(path, home);
    assert e[..|home|] == home;
    assert e[|home|..] == path[1..];
    assert ['~'] + path[1..] == path;
  }

  const Placeholder: String := "{cwd}"

  /** The prompt template with its first `{cwd}` replaced by the directory;
      later placeholders and all other text are kept. */
  function RenderPrompt(template: String, cwd: String): (r: String)
    ensures !Contains(template, Placeholder) ==> r == template
    ensures Contains(template, Placeholder) ==>
      var i := FindSub(template, Placeholder).value;
      && !Contains(template[..i], Placeholder)
      && r == template[..i] + cwd + template[i + |Placeholder|..]
  {
    match FindSub(template, Placeholder)
    case None => template
    case Some(i) =>
      PrefixBeforeFirstOccurrence(template, Placeholder, i);
      template[..i] + cwd + template[i + |Placeholder|..]
  }
}

=== FILE: history.dfy ===
/** The command history: the append policy at the end of `read_line` and the
    window the `history` builtin prints (jshell.cpp). */
module History {
  import opened Outcomes
  import opened Text
  import opened Numbers

  /** The default capacity, JSHELL_HISTORY_SIZE. */
  const DefaultCapacity: nat := 1000

  /** size_t is 64 bits wide. */
  const Modulus64: int := 0x1_0000_0000_0000_0000

  /** No vector holds more than PTRDIFF_MAX elements. */
  const MaxSize: int := Modulus64 / 2

  /** Lines worth recording: non-empty and different from the latest entry. */
  predicate Recorded(h: seq<String>, line: String) {
    line != [] && (h == [] || h[|h| - 1] != line)
  }

  /** Appending an entered line. When the history is at capacity the oldest
      entry is erased first; with a capacity of 0 and an empty history that
      erase has no element to remove, which is undefined behaviour. */
  function Append(h: seq<String>, line: String, capacity: nat): (r: Result<seq<String>>)
    ensures r.Fail? <==> Recorded(h, line) && capacity == 0 && h == []
    ensures r.Fail? ==> r.fault == EraseFromEmpty
    ensures r.Ok? && !Recorded(h, line) ==> r.value == h
    ensures r.Ok? && Recorded(h, line) ==> r.value != [] && r.value[|r.value| - 1] == line
    ensures r.Ok? && Recorded(h, line) && |h| < capacity ==> r.value == h + [line]
    ensures r.Ok? && Recorded(h, line) && |h| >= capacity ==> r.value == h[1..] + [line]
  {
    if !Recorded(h, line) then Ok(h)
    else if |h| >= capacity then
      if h == [] then Fail(EraseFromEmpty) else Ok(h[1..] + [line])
    else Ok(h + [line])
  }

  /** No entry repeats the one just before it. */
  predicate NoAdjacentRepeats(h: seq<String>) {
    forall i :: 0 < i < |h| ==> h[i - 1] != h[i]
  }

  /** Appending keeps the history within its capacity and free of adjacent
      repeats, and every recorded line becomes the latest entry. */
  lemma AppendKeepsInvariant(h: seq<String>, line: String, capacity: nat)
    requires capacity > 0 && |h| <= capacity && NoAdjacentRepeats(h)
    ensures Append(h, line, capacity).Ok?
    ensures |Append(h, line, capacity).value| <= capacity
    ensures NoAdjacentRepeats(Append(h, line, capacity).value)
  {
    var r := Append(h, line, capacity).value;
    if Recorded(h, line) {
      forall i | 0 < i < |r|
        ensures r[i - 1] != r[i]
      {
        if |h| >= capacity {
          if i < |r| - 1 {
            assert r[i - 1] == h[i] && r[i] == h[i + 1];
          } else {
            assert r[i - 1] == h[|h| - 1];
          }
        } else if i < |r| - 1 {
          assert r[i - 1] == h[i - 1] && r[i] == h[i];
        }
      }
    }
  }

  /** Entering the lines one after another. */
  function AppendAll(h: seq<String>, lines: seq<String>, capacity: nat): Result<seq<String>>
    decreases |lines|
  {
    if lines == [] then Ok(h)
    else match Append(h, lines[0], capacity)
      case Ok(h') => AppendAll(h', lines[1..], capacity)
      case Fail(f) => Fail(f)
  }

  /** Over any session with a positive capacity the history never exceeds it,
      and never holds the same line twice in a row. */
  lemma {:induction false} SessionKeepsInvariant(h: seq<String>, lines: seq<String>, capacity: nat)
    requires capacity > 0 && |h| <= capacity && NoAdjacentRepeats(h)
    ensures AppendAll(h, lines, capacity).Ok?
    ensures |AppendAll(h, lines, capacity).value| <= capacity
    ensures NoAdjacentRepeats(AppendAll(h, lines, capacity).value)
    decreases |lines|
  {
    if lines != [] {
      AppendKeepsInvariant(h, lines[0], capacity);
      SessionKeepsInvariant(Append(h, lines[0], capacity).value, lines[1..], capacity);
    }
  }

  /** What the `history` builtin prints: the entries from index `first` on,
      numbered from first + 1. */
  datatype Window = Window(code: int, first: nat, shown: seq<String>)

  /** `history [count]`: a count that std::stoi rejects gives code 1 and no
      output; a negative count, cast to size_t, exceeds any history and so
      shows everything; otherwise the last min(count, size) entries. */
  function HistoryBuiltin(h: seq<String>, args: seq<String>): (w: Window)
    ensures w.first <= |h| && w.shown == h[w.first..]
    ensures |args| <= 1 ==> w == Window(0, 0, h)
    ensures |args| > 1 && Stoi(args[1]).Fail? ==> w == Window(1, |h|, [])
    ensures |args| > 1 && Stoi(args[1]).Ok? && Stoi(args[1]).value < 0 && |h| < MaxSize ==>
      w == Window(0, 0, h)
    ensures |args| > 1 && Stoi(args[1]).Ok? && Stoi(args[1]).value >= 0 ==>
      w.code == 0 && |w.shown| == Min(Stoi(args[1]).value, |h|)
  {
    if |args| <= 1 then Window(0, 0, h)
    else match Stoi(args[1])
      case Fail(_) => Window(1, |h|, [])
      case Ok(n) =>
        var count := Min(|h|, n % Modulus64);
        Window(0, |h| - count, h[|h| - count..])
  }

  function Min(a: int, b: int): int {
    if a <= b then a else b
  }
}

=== FILE: jobs.dfy ===
/** The background job table (jshell.cpp): registration by `launch_process`,
    and the `jobs`, `fg` and `bg` builtins. Whether a process has finished,
    and its exit code, come from the operating system; here they are
    parameters. */
module Jobs {
  import opened Outcomes
  import opened Text
  import opened Numbers

  /** GetExitCodeProcess reports this code for a process that is still running. */
  const StillActive: nat := 259

  /** A DWORD value. */
  type Dword = d: nat | d < Modulus32

  datatype Job = Job(processId: nat, commandLine: String, isRunning: bool, isStopped: bool, jobId: int)

  datatype JobTable = JobTable(jobs: seq<Job>, nextJobId: int)

  /** A fresh shell: no jobs, and the first id handed out is 1. */
  const Initial := JobTable([], 1)

  /** Ids strictly increase along the table and all lie below the next id;
      nothing ever marks a job stopped. */
  predicate Valid(t: JobTable) {
    && 1 <= t.nextJobId
    && (forall i :: 0 <= i < |t.jobs| ==> 1 <= t.jobs[i].jobId < t.nextJobId && !t.jobs[i].isStopped)
    && IdsIncrease(t.jobs)
  }

  predicate IdsIncrease(js: seq<Job>) {
    forall i, j :: 0 <= i < j < |js| ==> js[i].jobId < js[j].jobId
  }

  /** A background launch from the interactive shell: the new job takes the
      next id, which then advances by one. */
  function Register(t: JobTable, processId: nat, commandLine: String): (r: JobTable)
    ensures r.nextJobId == t.nextJobId + 1
    ensures r.jobs == t.jobs + [Job(processId, commandLine, true, false, t.nextJobId)]
    ensures Valid(t) ==> Valid(r)
  {
    JobTable(t.jobs + [Job(processId, commandLine, true, false, t.nextJobId)], t.nextJobId + 1)
  }

  /** The answer of GetExitCodeProcess: None when the call fails. */
  type ExitQuery = Job -> Option<Dword>

  predicate Finished(query: ExitQuery, j: Job) {
    query(j).Some? && query(j).value != StillActive
  }

  /** The finished jobs, reported as Done, and the table of the others. */
  datatype Reaped = Reaped(done: seq<Job>, table: JobTable)

  function Unfinished(query: ExitQuery, js: seq<Job>): (r: seq<Job>)
    ensures |r| <= |js|
    ensures forall j :: j in r <==> j in js && !Finished(query, j)
  {
    if js == [] then []
    else (if Finished(query, js[0]) then [] else [js[0]]) + Unfinished(query, js[1..])
  }

  function FinishedJobs(query: ExitQuery, js: seq<Job>): (r: seq<Job>)
    ensures forall j :: j in r <==> j in js && Finished(query, j)
  {
    if js == [] then []
    else (if Finished(query, js[0]) then [js[0]] else []) + FinishedJobs(query, js[1..])
  }

  /** `jobs`: removes exactly the finished entries, keeping the rest in order;
      the next id is untouched. */
  function ReapJobs(t: JobTable, query: ExitQuery): (r: Reaped)
    ensures r.table.nextJobId == t.nextJobId
    ensures forall j :: j in r.table.jobs <==> j in t.jobs && !Finished(query, j)
    ensures forall j :: j in r.done <==> j in t.jobs && Finished(query, j)
  {
    Reaped(FinishedJobs(query, t.jobs), JobTable(Unfinished(query, t.jobs), t.nextJobId))
  }

  /** Every job is either reported or kept, exactly once. */
  lemma {:induction false} ReapPartitions(query: ExitQuery, js: seq<Job>)
    ensures multiset(FinishedJobs(query, js)) + multiset(Unfinished(query, js)) == multiset(js)
  {
    if js != [] {
      var h := [js[0]];
      var f0: seq<Job> := if Finished(query, js[0]) then h else [];
      var u0: seq<Job> := if Finished(query, js[0]) then [] else h;
      var f := FinishedJobs(query, js[1..]);
      var u := Unfinished(query, js[1..]);
      ReapPartitions(query, js[1..]);
      assert FinishedJobs(query, js) == f0 + f;
      assert Unfinished(query, js) == u0 + u;
      assert multiset(f0) + multiset(u0) == multiset(h);
      assert js == h + js[1..];
      calc {
        multiset(f0 + f) + multiset(u0 + u);
        multiset(f0) + multiset(u0) + (multiset(f) + multiset(u));
        multiset(h) + multiset(js[1..]);
        multiset(h + js[1..]);
      }
    }
  }

  /** The kept jobs are a subsequence: their ids still increase. */
  lemma {:induction false} UnfinishedOrdered(query: ExitQuery, js: seq<Job>)
    requires IdsIncrease(js)
    ensures IdsIncrease(Unfinished(query, js))
  {
    if js != [] {
      var tail := js[1..];
      assert IdsIncrease(tail) by {
        forall i, j | 0 <= i < j < |tail|
          ensures tail[i].jobId < tail[j].jobId
        {
          assert tail[i] == js[i + 1] && tail[j] == js[j + 1];
        }
      }
      UnfinishedOrdered(query, tail);
      var rest := Unfinished(query, tail);
      var r := Unfinished(query, js);
      forall k | 0 <= k < |rest|
        ensures js[0].jobId < rest[k].jobId
      {
        assert rest[k] in tail;
        var m :| 0 <= m < |tail| && tail[m] == rest[k];
        assert tail[m] == js[m + 1];
      }
      forall i, j | 0 <= i < j < |r|
        ensures r[i].jobId < r[j].jobId
      {
        if !Finished(query, js[0]) {
          assert r == [js[0]] + rest;
          if i > 0 {
            assert r[i] == rest[i - 1] && r[j] == rest[j - 1];
            assert rest[i - 1].jobId < rest[j - 1].jobId;
          } else {
            assert r[j] == rest[j - 1];
          }
        } else {
          assert r == rest;
        }
      }
    }
  }

  lemma ReapKeepsValid(t: JobTable, query: ExitQuery)
    requires Valid(t)
    ensures Valid(ReapJobs(t, query).table)
  {
    UnfinishedOrdered(query, t.jobs);
    var r := ReapJobs(t, query).table;
    assert r.jobs == Unfinished(query, t.jobs);
    forall i | 0 <= i < |r.jobs|
      ensures 1 <= r.jobs[i].jobId < r.nextJobId && !r.jobs[i].isStopped
    {
      assert r.jobs[i] in t.jobs;
    }
  }

  /** Index of the first job with the id, as std::find_if finds it. */
  function FindJob(js: seq<Job>, id: int): (r: Option<nat>)
    ensures r.None? <==> forall i :: 0 <= i < |js| ==> js[i].jobId != id
    ensures r.Some? ==> r.value < |js| && js[r.value].jobId == id
    ensures r.Some? ==> forall i :: 0 <= i < r.value ==> js[i].jobId != id
  {
    if js == [] then None
    else if js[0].jobId == id then Some(0)
    else match FindJob(js[1..], id)
      case None => None
      case Some(k) => Some(k + 1)
  }

  function RemoveAt(js: seq<Job>, k: nat): seq<Job>
    requires k < |js|
  {
    js[..k] + js[k + 1..]
  }

  /** A builtin's exit code and the table it leaves. */
  datatype Outcome = Outcome(code: int, table: JobTable)

  /** `fg [id]`: an empty table, or an id that names no job, gives 1 and
      changes nothing; an id std::stoi cannot read throws. Otherwise the job
      (the most recent one when no id is given) leaves the table and its exit
      code, waited for and cast to int, is the result. */
  function Foreground(t: JobTable, args: seq<String>, exitCode: Job -> Dword): (r: Result<Outcome>)
    ensures t.jobs == [] ==> r == Ok(Outcome(1, t))
    ensures t.jobs != [] && |args| > 1 && Stoi(args[1]).Fail? ==> r == Fail(Stoi(args[1]).fault)
    ensures r.Ok? ==> r.value.table.nextJobId == t.nextJobId
    ensures r.Ok? && r.value.table != t ==>
      exists k :: 0 <= k < |t.jobs| && r.value.table.jobs == RemoveAt(t.jobs, k) &&
        r.value.code == DwordToInt(exitCode(t.jobs[k]))
    ensures t.jobs != [] && |args| <= 1 ==>
      r == Ok(Outcome(DwordToInt(exitCode(t.jobs[|t.jobs| - 1])),
        t.(jobs := t.jobs[..|t.jobs| - 1])))
    ensures t.jobs != [] && |args| > 1 && Stoi(args[1]).Ok? ==>
      var found := FindJob(t.jobs, Stoi(args[1]).value);
      && (found.None? ==> r == Ok(Outcome(1, t)))
      && (found.Some? ==> r == Ok(Outcome(DwordToInt(exitCode(t.jobs[found.value])),
            t.(jobs := RemoveAt(t.jobs, found.value)))))
  {
    if t.jobs == [] then Ok(Outcome(1, t))
    else if |args| > 1 then
      match Stoi(args[1])
      case Fail(f) => Fail(f)
      case Ok(id) =>
        match FindJob(t.jobs, id)
        case None => Ok(Outcome(1, t))
        case Some(k) =>
          assert |t.jobs[..k] + t.jobs[k + 1..]| < |t.jobs|;
          Ok(Outcome(DwordToInt(exitCode(t.jobs[k])), t.(jobs := RemoveAt(t.jobs, k))))
    else
      var last := |t.jobs| - 1;
      assert t.jobs[..last] == RemoveAt(t.jobs, last);
      Ok(Outcome(DwordToInt(exitCode(t.jobs[last])), t.(jobs := t.jobs[..last])))
  }

  /** `fg` with any text std::stoi reads as an id the table does not hold
      (`7`, `07`, `+7`, ` 7` or `7x` alike) gives 1 and changes nothing. */
  lemma ForegroundUnknownId(t: JobTable, args: seq<String>, id: int, exitCode: Job -> Dword)
    requires |args| > 1 && Stoi(args[1]) == Ok(id)
    requires forall i :: 0 <= i < |t.jobs| ==> t.jobs[i].jobId != id
    ensures Foreground(t, args, exitCode) == Ok(Outcome(1, t))
  {
  }

  /** `fg` with any text std::stoi reads as the id of job k removes that job
      and only it, and yields its exit code. */
  lemma ForegroundById(t: JobTable, args: seq<String>, k: nat, exitCode: Job -> Dword)
    requires Valid(t) && k < |t.jobs|
    requires |args| > 1 && Stoi(args[1]) == Ok(t.jobs[k].jobId)
    ensures Foreground(t, args, exitCode) ==
      Ok(Outcome(DwordToInt(exitCode(t.jobs[k])), t.(jobs := RemoveAt(t.jobs, k))))
  {
  }

  /** The id the shell prints for a job is one such text. */
  lemma ForegroundByPrintedId(t: JobTable, k: nat, exitCode: Job -> Dword)
    requires Valid(t) && k < |t.jobs| && t.jobs[k].jobId <= IntMax
    ensures Foreground(t, ["fg", ShowInt(t.jobs[k].jobId)], exitCode) ==
      Ok(Outcome(DwordToInt(exitCode(t.jobs[k])), t.(jobs := RemoveAt(t.jobs, k))))
  {
    StoiShowInt(t.jobs[k].jobId);
    ForegroundById(t, ["fg", ShowInt(t.jobs[k].jobId)], k, exitCode);
  }

  /** Removing any entry keeps the table valid. */
  lemma RemoveAtKeepsValid(t: JobTable, k: nat)
    requires Valid(t) && k < |t.jobs|
    ensures Valid(t.(jobs := RemoveAt(t.jobs, k)))
  {
    var js := RemoveAt(t.jobs, k);
    assert |js| == |t.jobs| - 1;
    assert forall i :: 0 <= i < |js| ==> js[i] == t.jobs[if i < k then i else i + 1];
  }

  lemma ForegroundKeepsValid(t: JobTable, args: seq<String>, exitCode: Job -> Dword)
    requires Valid(t) && Foreground(t, args, exitCode).Ok?
    ensures Valid(Foreground(t, args, exitCode).value.table)
  {
    var r := Foreground(t, args, exitCode).value.table;
    if r != t {
      var k :| 0 <= k < |t.jobs| && r.jobs == RemoveAt(t.jobs, k);
      RemoveAtKeepsValid(t, k);
      assert r == t.(jobs := RemoveAt(t.jobs, k));
    }
  }

  /** `bg [id]`: an empty table or unknown id gives 1; a job that is not
      stopped gives 1 ("already running"); a stopped job is marked running
      and the result is 0. Since nothing ever stops a job, on a valid table
      `bg` can only answer 1 (or throw) and never changes it. */
  function Background(t: JobTable, args: seq<String>): (r: Result<Outcome>)
    ensures t.jobs == [] ==> r == Ok(Outcome(1, t))
    ensures t.jobs != [] && |args| > 1 && Stoi(args[1]).Fail? ==> r == Fail(Stoi(args[1]).fault)
    ensures r.Ok? && r.value.code != 0 ==> r.value.table == t
    ensures Valid(t) && r.Ok? ==> r.value == Outcome(1, t)
  {
    if t.jobs == [] then Ok(Outcome(1, t))
    else
      var found: Result<Option<nat>> :=
        if |args| > 1 then
          match Stoi(args[1])
          case Fail(f) => Fail(f)
          case Ok(id) => Ok(FindJob(t.jobs, id))
        else Ok(Some(|t.jobs| - 1));
      match found
      case Fail(f) => Fail(f)
      case Ok(None) => Ok(Outcome(1, t))
      case Ok(Some(k)) =>
        if !t.jobs[k].isStopped then Ok(Outcome(1, t))
        else Ok(Outcome(0, t.(jobs := t.jobs[k := t.jobs[k].(isStopped := false, isRunning := true)])))
  }

  /** What happens to the table, one step at a time. */
  datatype Event =
    | Launch(processId: nat, commandLine: String)
    | ListJobs(query: ExitQuery)
    | Fg(args: seq<String>, exitCode: Job -> Dword)
    | Bg(args: seq<String>)

  /** The table after a step; a step whose builtin throws leaves it as it was. */
  function Step(t: JobTable, e: Event): JobTable {
    match e
    case Launch(pid, cmd) => Register(t, pid, cmd)
    case ListJobs(query) => if t.jobs == [] then t else ReapJobs(t, query).table
    case Fg(args, exitCode) =>
      (match Foreground(t, args, exitCode) case Ok(o) => o.table case Fail(_) => t)
    case Bg(args) => (match Background(t, args) case Ok(o) => o.table case Fail(_) => t)
  }

  function Run(t: JobTable, es: seq<Event>): JobTable
    decreases |es|
  {
    if es == [] then t else Run(Step(t, es[0]), es[1..])
  }

  function Launches(es: seq<Event>): nat {
    if es == [] then 0 else (if es[0].Launch? then 1 else 0) + Launches(es[1..])
  }

  /** Along any sequence of steps the table stays valid and the next id is
      one past the number of launches: ids are handed out 1, 2, 3, ... and
      none is handed out twice, whatever leaves the table. */
  lemma {:induction false} RunKeepsValid(t: JobTable, es: seq<Event>)
    requires Valid(t)
    ensures Valid(Run(t, es))
    ensures Run(t, es).nextJobId == t.nextJobId + Launches(es)
    decreases |es|
  {
    if es != [] {
      var e := es[0];
      match e {
        case Launch(pid, cmd) =>
        case ListJobs(query) => if t.jobs != [] { ReapKeepsValid(t, query); }
        case Fg(args, exitCode) =>
          if Foreground(t, args, exitCode).Ok? { ForegroundKeepsValid(t, args, exitCode); }
        case Bg(args) =>
      }
      RunKeepsValid(Step(t, e), es[1..]);
    }
  }

  const ThreeLaunches := [Launch(10, "a"), Launch(11, "b"), Launch(12, "c")]

  lemma RunThreeLaunches()
    ensures Run(Initial, ThreeLaunches) == JobTable([Job(10, "a", true, false, 1),
      Job(11, "b", true, false, 2), Job(12, "c", true, false, 3)], 4)
  {
    var es := ThreeLaunches;
    var t1 := Register(Initial, 10, "a");
    var t2 := Register(t1, 11, "b");
    assert Run(Initial, es) == Run(t1, es[1..]);
    assert Run(t1, es[1..]) == Run(t2, es[2..]);
  }

  /** Three launches, `fg 2`, another launch: the new job gets id 4, not 2. */
  lemma IdsNotReused(exitCode: Job -> Dword)
    ensures var fg := Foreground(Run(Initial, ThreeLaunches), ["fg", ShowInt(2)], exitCode);
      && fg.Ok?
      && var t5 := Register(fg.value.table, 13, "d");
      && |t5.jobs| == 3
      && [t5.jobs[0].jobId, t5.jobs[1].jobId, t5.jobs[2].jobId] == [1, 3, 4]
  {
    RunThreeLaunches();
    var t3 := Run(Initial, ThreeLaunches);
    StoiShowInt(2);
    assert FindJob(t3.jobs[1..], 2) == Some(0);
    var t4 := t3.(jobs := RemoveAt(t3.jobs, 1));
    assert t4.jobs == [t3.jobs[0], t3.jobs[2]];
  }
}

=== FILE: launch.dfy ===
/** `launch_process` (jshell.cpp) as a decision over what the operating system
    answers: which redirection files open, whether the program is found on
    PATH, whether CreateProcessA succeeds, and the exit code. The order of the
    checks, the codes returned, the command-line string handed to the new
    process, and when a job is registered are modelled; the handles are not. */
module Launch {
  import opened Outcomes
  import opened Text
  import opened Numbers
  import opened Tokenizer
  import opened Parser
  import opened Jobs

  /** The operating system's answers. `executable` stands for
      `find_executable`: the empty string when the name is not found. */
  datatype World = World(
    readable: set<String>,
    writable: set<String>,
    executable: String -> String,
    spawns: bool,
    processId: nat,
    exitCode: Dword)

  datatype Launched =
    | EmptyArgs
    | CannotOpenInput
    | CannotOpenOutput
    | CannotOpenError
    | NotFound
    | SpawnFailed
    | Waited(exitCode: Dword)
    | Registered(job: Job)
    | Detached

  /** The value `launch_process` returns. */
  function Code(l: Launched): int {
    match l
    case NotFound => 127
    case Waited(c) => DwordToInt(c)
    case Registered(_) => 0
    case Detached => 0
    case _ => 1
  }

  /** An argument as it is written into the command line: wrapped in double
      quotes when it holds a space. */
  function Render(w: String): String {
    if ' ' in w then ['"'] + w + ['"'] else w
  }

  /** Every rendered argument followed by one space. */
  function Trailing(ws: seq<String>): String {
    if ws == [] then [] else Render(ws[0]) + [' '] + Trailing(ws[1..])
  }

  function MapRender(ws: seq<String>): (r: seq<String>)
    ensures |r| == |ws| && forall k :: 0 <= k < |ws| ==> r[k] == Render(ws[k])
  {
    if ws == [] then [] else [Render(ws[0])] + MapRender(ws[1..])
  }

  /** The command line: the arguments after the program name, rendered, each
      followed by a space, with the final space popped. */
  function CommandLine(args: seq<String>): String {
    var s := if args == [] then [] else Trailing(args[1..]);
    if s == [] then [] else s[..|s| - 1]
  }

  /** Popping the last space is joining with single spaces. */
  lemma {:induction false} TrailingIsJoin(ws: seq<String>)
    requires ws != []
    ensures Trailing(ws) == JoinWith(MapRender(ws), ' ') + [' ']
  {
    if |ws| > 1 {
      TrailingIsJoin(ws[1..]);
      assert MapRender(ws)[1..] == MapRender(ws[1..]);
    }
  }

  lemma CommandLineIsJoin(args: seq<String>)
    requires |args| >= 2
    ensures CommandLine(args) == JoinWith(MapRender(args[1..]), ' ')
  {
    TrailingIsJoin(args[1..]);
  }

  /** Arguments the command line carries faithfully: non-empty, no quote
      characters, and no white space other than the plain space. */
  predicate Safe(w: String) {
    w != [] && forall k :: 0 <= k < |w| ==> !IsQuote(w[k]) && (IsSpace(w[k]) ==> w[k] == ' ')
  }

  lemma RenderedWord(w: String, rest: String, cur: String)
    requires Safe(w)
    ensures Scan(Render(w) + rest, None, cur) == Scan(rest, None, cur + w)
  {
    if ' ' in w {
      var s := ['"'] + w + ['"'] + rest;
      assert Render(w) + rest == s;
      assert s[1..] == w + ['"'] + rest;
      QuotedRegion(w, '"', rest, cur);
    } else {
      PlainRun(w, rest, cur);
    }
  }

  lemma {:induction false} TokenizeRendered(ws: seq<String>)
    requires forall k :: 0 <= k < |ws| ==> Safe(ws[k])
    ensures Tokenize(JoinWith(MapRender(ws), ' ')) == ws
    decreases |ws|
  {
    var rs := MapRender(ws);
    if |ws| == 1 {
      RenderedWord(ws[0], [], []);
      assert rs[0] + [] == rs[0];
      assert [] + ws[0] == ws[0];
      assert Scan([], None, ws[0]) == [ws[0]];
      assert ws == [ws[0]];
    } else if |ws| > 1 {
      var tail := JoinWith(rs[1..], ' ');
      assert rs[1..] == MapRender(ws[1..]);
      assert JoinWith(rs, ' ') == rs[0] + ([' '] + tail);
      RenderedWord(ws[0], [' '] + tail, []);
      assert ([' '] + tail)[1..] == tail;
      TokenizeRendered(ws[1..]);
      assert [] + ws[0] == ws[0];
      assert ws == [ws[0]] + ws[1..];
    }
  }

  /** The child process, splitting its command line as the shell's own
      tokenizer does, recovers the arguments after the program name. */
  lemma CommandLineRoundTrip(args: seq<String>)
    requires |args| >= 2 && forall k :: 1 <= k < |args| ==> Safe(args[k])
    ensures Tokenize(CommandLine(args)) == args[1..]
  {
    CommandLineIsJoin(args);
    TokenizeRendered(args[1..]);
  }

  /** The text a registered job shows: every argument, program name
      included, joined by single spaces. */
  function JobText(args: seq<String>): String {
    JoinWith(args, ' ')
  }

  /** Every redirection file named by the command can be opened. The output
      and error files are opened with share mode 0, so a file named twice
      cannot be opened the second time: `cmd > f 2> f` and `cmd < f > f`
      both fail. Only equal spellings are recognised as the same file. */
  predicate RedirectsOpen(cmd: Command, w: World) {
    && (cmd.inputFile == [] || cmd.inputFile in w.readable)
    && (cmd.outputFile == [] || (cmd.outputFile in w.writable && cmd.outputFile != cmd.inputFile))
    && (cmd.errorFile == [] ||
        (cmd.errorFile in w.writable && cmd.errorFile != cmd.inputFile && cmd.errorFile != cmd.outputFile))
  }

  /** The checks in source order: empty arguments, then the input, output and
      error files, then the PATH lookup, then process creation. A file that
      cannot be opened is therefore reported (code 1) even for an unknown
      program; an unknown program gives 127 only once every file opened. A process
      not sent to the background is waited for and its exit code returned; a
      background one becomes a job only when the caller passed the shell
      state (`hasState`), and is otherwise left detached with code 0. */
  function LaunchProcess(cmd: Command, w: World, hasState: bool, nextJobId: int): (l: Launched)
    ensures l == EmptyArgs <==> cmd.args == []
    ensures cmd.args != [] && cmd.inputFile != [] && cmd.inputFile !in w.readable ==> l == CannotOpenInput
    ensures cmd.args != [] && cmd.errorFile != [] && cmd.errorFile == cmd.outputFile ==>
      l == CannotOpenError || l == CannotOpenOutput || l == CannotOpenInput
    ensures l == NotFound ==> cmd.args != [] && w.executable(cmd.args[0]) == []
    ensures l.Registered? <==>
      cmd.args != [] && cmd.background && hasState && w.spawns && w.executable(cmd.args[0]) != [] &&
      RedirectsOpen(cmd, w)
    ensures l.Registered? ==> l.job == Job(w.processId, JobText(cmd.args), true, false, nextJobId)
    ensures l.Waited? ==> !cmd.background && l.exitCode == w.exitCode
    ensures l == NotFound <==> cmd.args != [] && RedirectsOpen(cmd, w) && w.executable(cmd.args[0]) == []
    ensures cmd.args != [] && !RedirectsOpen(cmd, w) ==> Code(l) == 1
    ensures cmd.args != [] && RedirectsOpen(cmd, w) && w.executable(cmd.args[0]) != [] ==>
      && (!w.spawns ==> l == SpawnFailed && Code(l) == 1)
      && (w.spawns && !cmd.background ==> l == Waited(w.exitCode) && Code(l) == DwordToInt(w.exitCode))
      && (w.spawns && cmd.background && !hasState ==> l == Detached && Code(l) == 0)
  {
    if cmd.args == [] then EmptyArgs
    else if cmd.inputFile != [] && cmd.inputFile !in w.readable then CannotOpenInput
    else if cmd.outputFile != [] && (cmd.outputFile !in w.writable || cmd.outputFile == cmd.inputFile) then
      CannotOpenOutput
    else if cmd.errorFile != [] &&
      (cmd.errorFile !in w.writable || cmd.errorFile == cmd.inputFile || cmd.errorFile == cmd.outputFile) then
      CannotOpenError
    else if w.executable(cmd.args[0]) == [] then NotFound
    else if !w.spawns then SpawnFailed
    else if !cmd.background then Waited(w.exitCode)
    else if hasState then Registered(Job(w.processId, JobText(cmd.args), true, false, nextJobId))
    else Detached
  }

  /** `cmd > f 2> f`: the second open of `f` fails and nothing runs, even
      when `f` is writable and the program exists. */
  lemma SameFileTwiceFails(cmd: Command, w: World, hasState: bool, nextJobId: int)
    requires cmd.args != [] && cmd.inputFile == [] && cmd.outputFile != []
    requires cmd.errorFile == cmd.outputFile && cmd.outputFile in w.writable
    ensures LaunchProcess(cmd, w, hasState, nextJobId) == CannotOpenError
    ensures Code(LaunchProcess(cmd, w, hasState, nextJobId)) == 1
  {
  }

  /** The job table after a launch: it grows by one job exactly when the
      launch registered one. */
  function LaunchWithTable(cmd: Command, w: World, hasState: bool, t: JobTable): (r: Outcome)
    ensures r.code == Code(LaunchProcess(cmd, w, hasState, t.nextJobId))
    ensures LaunchProcess(cmd, w, hasState, t.nextJobId).Registered? ==>
      r.table == Register(t, w.processId, JobText(cmd.args))
    ensures !LaunchProcess(cmd, w, hasState, t.nextJobId).Registered? ==> r.table == t
    ensures !hasState ==> r.table == t
  {
    var l := LaunchProcess(cmd, w, hasState, t.nextJobId);
    Outcome(Code(l), if l.Registered? then Register(t, w.processId, JobText(cmd.args)) else t)
  }
}

=== FILE: numbers.dfy ===
/** The numeric conversions the shell performs: std::stoi on job ids and
    history counts, std::stoul on the max_history setting, the decimal
    rendering of job ids, and the cast of a process's DWORD exit code to int. */
module Numbers {
  import opened Outcomes
  import opened Text

  const IntMin: int := -0x8000_0000
  const IntMax: int := 0x7FFF_FFFF
  /** unsigned long and DWORD are both 32 bits wide on Windows. */
  const Modulus32: int := 0x1_0000_0000
  const UlongMax: int := Modulus32 - 1

  predicate IsDigit(c: char) {
    '0' <= c <= '9'
  }

  predicate AllDigits(s: String) {
    forall k :: 0 <= k < |s| ==> IsDigit(s[k])
  }

  function DigitValue(c: char): (v: nat)
    requires IsDigit(c)
    ensures v < 10
  {
    c as int - '0' as int
  }

  function DigitChar(v: nat): (c: char)
    requires v < 10
    ensures IsDigit(c) && DigitValue(c) == v
  {
    ('0' as int + v) as char
  }

  /** Length of the run of decimal digits that starts `s`. */
  function DigitRun(s: String): (n: nat)
    ensures n <= |s| && AllDigits(s[..n])
    ensures n < |s| ==> !IsDigit(s[n])
  {
    if s != [] && IsDigit(s[0]) then
      var n := 1 + DigitRun(s[1..]);
      assert s[..n] == [s[0]] + s[1..][..n - 1];
      n
    else 0
  }

  /** Length of the run of white space that starts `s`. */
  function SpaceRun(s: String): (n: nat)
    ensures n <= |s|
    ensures forall k :: 0 <= k < n ==> IsSpace(s[k])
    ensures n < |s| ==> !IsSpace(s[n])
  {
    if s != [] && IsSpace(s[0]) then 1 + SpaceRun(s[1..]) else 0
  }

  /** The value of a string of decimal digits, most significant first. */
  function ValueOf(ds: String): nat
    requires AllDigits(ds)
  {
    if ds == [] then 0 else 10 * ValueOf(ds[..|ds| - 1]) + DigitValue(ds[|ds| - 1])
  }

  /** What strtol and strtoul read: white space, an optional sign, then at
      least one decimal digit; anything after the digits is ignored. */
  datatype Scanned = Scanned(negative: bool, magnitude: nat) {
    function Signed(): int {
      if negative then -(magnitude as int) else magnitude
    }
  }

  function ScanDecimal(s: String): (r: Option<Scanned>)
    ensures r.None? <==> DigitRun(Unsigned(s[SpaceRun(s)..])) == 0
  {
    var t := s[SpaceRun(s)..];
    var u := Unsigned(t);
    var n := DigitRun(u);
    if n == 0 then None
    else Some(Scanned(t != [] && t[0] == '-', ValueOf(u[..n])))
  }

  /** The text after an optional leading sign. */
  function Unsigned(t: String): String {
    if t != [] && (t[0] == '-' || t[0] == '+') then t[1..] else t
  }

  /** std::stoi with a 32-bit int: no digits throws invalid_argument, a
      value outside int throws out_of_range. */
  function Stoi(s: String): (r: Result<int>)
    ensures r.Ok? ==> IntMin <= r.value <= IntMax
    ensures r.Fail? ==> r.fault == InvalidArgument || r.fault == OutOfRange
    ensures r == Fail(InvalidArgument) <==> ScanDecimal(s).None?
    ensures r.Ok? ==> ScanDecimal(s).Some? && r.value == ScanDecimal(s).value.Signed()
    ensures ScanDecimal(s).Some? && IntMin <= ScanDecimal(s).value.Signed() <= IntMax ==>
      r == Ok(ScanDecimal(s).value.Signed())
    ensures r == Fail(OutOfRange) <==>
      ScanDecimal(s).Some? && !(IntMin <= ScanDecimal(s).value.Signed() <= IntMax)
  {
    match ScanDecimal(s)
    case None => Fail(InvalidArgument)
    case Some(sc) =>
      var v := sc.Signed();
      if IntMin <= v <= IntMax then Ok(v) else Fail(OutOfRange)
  }

  /** std::stoul with a 32-bit unsigned long: a magnitude above ULONG_MAX
      throws out_of_range, and a leading '-' negates modulo 2^32. */
  function Stoul(s: String): (r: Result<nat>)
    ensures r.Ok? ==> r.value <= UlongMax
    ensures r.Ok? ==> ScanDecimal(s).Some? && r.value % Modulus32 == ScanDecimal(s).value.Signed() % Modulus32
    ensures r == Fail(InvalidArgument) <==> ScanDecimal(s).None?
    ensures r == Fail(OutOfRange) <==> ScanDecimal(s).Some? && ScanDecimal(s).value.magnitude > UlongMax
    ensures r.Fail? ==> r.fault == InvalidArgument || r.fault == OutOfRange
  {
    match ScanDecimal(s)
    case None => Fail(InvalidArgument)
    case Some(sc) =>
      if sc.magnitude > UlongMax then Fail(OutOfRange)
      else if sc.negative then Ok((Modulus32 - sc.magnitude) % Modulus32)
      else Ok(sc.magnitude)
  }

  /** Decimal rendering of a natural number, as std::format("{}") writes it. */
  function ShowNat(n: nat): (s: String)
    ensures s != [] && AllDigits(s)
  {
    if n < 10 then [DigitChar(n)] else ShowNat(n / 10) + [DigitChar(n % 10)]
  }

  /** Decimal rendering of an int: a '-' then the magnitude. */
  function ShowInt(n: int): (s: String)
    ensures s != []
  {
    if n < 0 then ['-'] + ShowNat(-n) else ShowNat(n)
  }

  lemma {:induction false} ValueOfShowNat(n: nat)
    ensures ValueOf(ShowNat(n)) == n
  {
    if n >= 10 {
      var s := ShowNat(n);
      ValueOfShowNat(n / 10);
      assert s[..|s| - 1] == ShowNat(n / 10);
    }
  }

  /** Reading back a rendered number gives the number: the id the shell
      prints is the id std::stoi recovers. */
  lemma StoiShowInt(n: int)
    requires IntMin <= n <= IntMax
    ensures Stoi(ShowInt(n)) == Ok(n)
  {
    var s := ShowInt(n);
    assert SpaceRun(s) == 0 by {
      assert !IsSpace(s[0]);
    }
    assert s[SpaceRun(s)..] == s;
    var digits := if n < 0 then ShowNat(-n) else ShowNat(n);
    assert Unsigned(s) == digits;
    assert DigitRun(digits) == |digits| by {
      DigitRunAll(digits);
    }
    assert digits[..|digits|] == digits;
    ValueOfShowNat(if n < 0 then -n else n);
  }

  /** std::stoul reads back any rendered number it can hold. */
  lemma StoulShowNat(n: nat)
    requires n <= UlongMax
    ensures Stoul(ShowNat(n)) == Ok(n)
  {
    var s := ShowNat(n);
    assert SpaceRun(s) == 0 by {
      assert !IsSpace(s[0]);
    }
    assert s[SpaceRun(s)..] == s;
    assert Unsigned(s) == s;
    DigitRunAll(s);
    assert s[..|s|] == s;
    ValueOfShowNat(n);
  }

  /** For example, std::stoi skips leading blanks, accepts a sign and
      leading zeros, and ignores what follows the digits: " +07x" reads as 7. */
  lemma StoiLenient()
    ensures Stoi(" +07x") == Ok(7)
  {
    var s := " +07x";
    assert SpaceRun(s[1..]) == 0;
    assert SpaceRun(s) == 1;
    var t := s[1..];
    assert Unsigned(t) == "07x";
    assert DigitRun("x") == 0;
    assert DigitRun("7x") == 1;
    assert DigitRun("07x") == 2;
    assert "07x"[..2] == "07";
    assert "07"[..1] == "0";
    assert ValueOf("07") == 7;
  }

  lemma DigitRunAll(s: String)
    requires AllDigits(s)
    ensures DigitRun(s) == |s|
  {
    if s != [] {
      DigitRunAll(s[1..]);
    }
  }

  /** static_cast<int> of a DWORD: the int in range congruent to it mod 2^32. */
  function DwordToInt(d: nat): (r: int)
    requires d < Modulus32
    ensures IntMin <= r <= IntMax
    ensures r % Modulus32 == d
  {
    if d <= IntMax then d else d - Modulus32
  }
}

=== FILE: outcomes.dfy ===
/** Optional values, and results that carry the exceptions and undefined
    behaviour the shell's C++ code can run into. */
module Outcomes {

  datatype Option<+T> = None | Some(value: T)

  /** What goes wrong where the C++ code throws or reads out of bounds. */
  datatype Fault =
    | InvalidArgument   // std::invalid_argument from std::stoi / std::stoul
    | OutOfRange        // std::out_of_range from std::stoi / std::stoul / string::substr
    | EmptyArgsIndexed  // args[0] read from an empty argument vector (undefined behaviour)
    | EraseFromEmpty    // vector::erase(begin()) on an empty vector (undefined behaviour)

  datatype Result<+T> = Ok(value: T) | Fail(fault: Fault)
}

=== FILE: parser.dfy ===
/** `parse_command` and `parse_pipeline` (jshell.cpp): one pipeline segment
    becomes a Command by substituting variables, stripping a trailing `&`,
    cutting the working text at the stderr, stdout and stdin redirection
    markers in that order, and tokenizing what is left. */
module Parser {
  import opened Outcomes
  import opened Text
  import opened Tokenizer
  import opened Expansion

  datatype Command = Command(
    args: seq<String>,
    inputFile: String,
    outputFile: String,
    errorFile: String,
    appendOutput: bool,
    appendError: bool,
    background: bool)

  /** Index of the last character that is neither ' ' nor '\t'. */
  function LastNonBlank(t: String): (r: Option<nat>)
    ensures r.None? ==> forall k :: 0 <= k < |t| ==> IsBlank(t[k])
    ensures r.Some? ==> r.value < |t| && !IsBlank(t[r.value])
    ensures r.Some? ==> forall k :: r.value < k < |t| ==> IsBlank(t[k])
  {
    if t == [] then None
    else if !IsBlank(t[|t| - 1]) then Some(|t| - 1)
    else LastNonBlank(t[..|t| - 1])
  }

  /** After the `&` is popped: `temp.substr(0, last + 1)` when some
      non-blank exists, otherwise the text is kept as it is. */
  function TrimBlanksRight(t: String): (r: String)
    ensures IsPrefix(r, t)
    ensures forall k :: |r| <= k < |t| ==> IsBlank(t[k])
    ensures (forall k :: 0 <= k < |t| ==> IsBlank(t[k])) ==> r == t
    ensures r != t ==> !IsBlank(r[|r| - 1])
  {
    match LastNonBlank(t)
    case None => t
    case Some(i) => t[..i + 1]
  }

  datatype Stripped = Stripped(text: String, background: bool)

  /** Background detection looks at the very last character: `"sleep 5 & "`
      ends in a space and is not backgrounded. */
  function StripBackground(t: String): (r: Stripped)
    ensures r.background <==> t != [] && t[|t| - 1] == '&'
    ensures IsPrefix(r.text, t)
    ensures !r.background ==> r.text == t
    ensures r.background ==> |r.text| < |t| && forall k :: |r.text| <= k < |t| - 1 ==> IsBlank(t[k])
  {
    if t != [] && t[|t| - 1] == '&' then
      var r := TrimBlanksRight(t[..|t| - 1]);
      assert t[..|t| - 1][..|r|] == t[..|r|];
      Stripped(r, true)
    else Stripped(t, false)
  }

  /** One cut: the working text before the marker, and the first word after
      it (empty when there is none). */
  datatype Cut = Cut(file: String, rest: String)

  function CutAt(t: String, marker: String): (r: Option<Cut>)
    requires marker != []
    ensures r.None? <==> !Contains(t, marker)
    ensures r.Some? ==> IsPrefix(r.value.rest, t) && OccursAt(t, marker, |r.value.rest|)
    ensures r.Some? ==> forall j: nat :: j < |r.value.rest| ==> !OccursAt(t, marker, j)
    ensures r.Some? ==> !Contains(r.value.rest, marker)
    ensures r.Some? ==> r.value.file == FirstWord(t[|r.value.rest| + |marker|..])
  {
    match FindSub(t, marker)
    case None => None
    case Some(p) =>
      PrefixBeforeFirstOccurrence(t, marker, p);
      Some(Cut(FirstWord(t[p + |marker|..]), t[..p]))
  }

  datatype Redirect = Redirect(file: String, append: bool, rest: String)

  /** The two-marker step used for stderr (`2>>`, `2>`) and stdout (`>>`,
      `>`): the long marker anywhere in the text wins over the short one; the
      append flag is set only when a file word followed the long marker. */
  function RedirectStep(t: String, long: String, short: String): (r: Redirect)
    requires long != [] && short != []
    ensures IsPrefix(r.rest, t)
    ensures r.append <==> Contains(t, long) && r.file != []
    ensures Contains(t, long) ==>
      && OccursAt(t, long, |r.rest|)
      && !Contains(r.rest, long)
      && r.file == FirstWord(t[|r.rest| + |long|..])
    ensures !Contains(t, long) && Contains(t, short) ==>
      && OccursAt(t, short, |r.rest|)
      && !Contains(r.rest, short)
      && r.file == FirstWord(t[|r.rest| + |short|..])
    ensures !Contains(t, long) && !Contains(t, short) ==> r == Redirect([], false, t)
  {
    match CutAt(t, long)
    case Some(c) =>
      assert Contains(t, long);
      Redirect(c.file, c.file != [], c.rest)
    case None =>
      assert !Contains(t, long);
      match CutAt(t, short)
      case Some(c) =>
        assert Contains(t, short);
        Redirect(c.file, false, c.rest)
      case None => Redirect([], false, t)
  }

  /** The stdin step: `find('<')`, then the first word after it. */
  function InputStep(t: String): (r: Cut)
    ensures IsPrefix(r.rest, t) && '<' !in r.rest
    ensures '<' in t ==> |r.rest| < |t| && t[|r.rest|] == '<' && r.file == FirstWord(t[|r.rest| + 1..])
    ensures '<' !in t ==> r == Cut([], t)
  {
    match Find(t, '<')
    case Some(p) => Cut(FirstWord(t[p + 1..]), t[..p])
    case None => Cut([], t)
  }

  /** The intermediate results of the four steps, in the order they run. */
  datatype Steps = Steps(stripped: Stripped, error: Redirect, output: Redirect, input: Cut)

  function RunSteps(t: String): (s: Steps)
    ensures s.stripped == StripBackground(t)
    ensures s.error == RedirectStep(s.stripped.text, "2>>", "2>")
    ensures s.output == RedirectStep(s.error.rest, ">>", ">")
    ensures s.input == InputStep(s.output.rest)
  {
    var stripped := StripBackground(t);
    var error := RedirectStep(stripped.text, "2>>", "2>");
    var output := RedirectStep(error.rest, ">>", ">");
    Steps(stripped, error, output, InputStep(output.rest))
  }

  /** The text left for the argument words once every marker has cut it. */
  function WorkingText(t: String): String {
    RunSteps(t).input.rest
  }

  /** A text that lacks a character of the marker lacks the marker. */
  lemma LacksMarker(s: String, m: String, c: char)
    requires c in m && c !in s
    ensures !Contains(s, m)
  {
  }

  /** `parse_command` after variable substitution. */
  function ParseExpanded(t: String, home: String): (cmd: Command)
    ensures cmd.background <==> t != [] && t[|t| - 1] == '&'
    ensures var e := RedirectStep(StripBackground(t).text, "2>>", "2>");
      var o := RedirectStep(e.rest, ">>", ">");
      && cmd.errorFile == e.file && cmd.appendError == e.append
      && cmd.outputFile == o.file && cmd.appendOutput == o.append
      && cmd.inputFile == InputStep(o.rest).file
      && WorkingText(t) == InputStep(o.rest).rest
    ensures cmd.appendError ==> cmd.errorFile != []
    ensures cmd.appendOutput ==> cmd.outputFile != []
    ensures |cmd.args| == |Tokenize(WorkingText(t))|
    ensures forall k :: 0 <= k < |cmd.args| ==>
      cmd.args[k] != [] && cmd.args[k] == ExpandPath(Tokenize(WorkingText(t))[k], home)
  {
    var s := RunSteps(t);
    var words := Tokenize(s.input.rest);
    Command(
      args := seq(|words|, k requires 0 <= k < |words| => ExpandPath(words[k], home)),
      inputFile := s.input.file,
      outputFile := s.output.file,
      errorFile := s.error.file,
      appendOutput := s.output.append,
      appendError := s.error.append,
      background := s.stripped.background)
  }

  /** `parse_command`: variables are substituted over the whole segment first. */
  function ParseCommand(segment: String, vars: Table, env: Table, home: String): Command {
    ParseExpanded(Substitute(segment, vars, env), home)
  }

  /** `parse_pipeline`: the empty line gives no commands; otherwise one command
      per `|`-separated piece that std::getline yields (a `|` inside quotes
      still splits, and a trailing `|` adds no empty piece). */
  function ParsePipeline(line: String, vars: Table, env: Table, home: String): (cmds: seq<Command>)
    ensures line == [] ==> cmds == []
    ensures line != [] && line[|line| - 1] != '|' ==> |cmds| == Count(line, '|') + 1
    ensures line != [] && line[|line| - 1] == '|' ==> |cmds| == Count(line, '|')
    ensures |cmds| == |GetlineSplit(line, '|')|
    ensures forall k :: 0 <= k < |cmds| ==>
      cmds[k] == ParseCommand(GetlineSplit(line, '|')[k], vars, env, home)
  {
    if line == [] then []
    else
      var segments := GetlineSplit(line, '|');
      GetlineSplitRoundTrip(line, '|');
      seq(|segments|, k requires 0 <= k < |segments| => ParseCommand(segments[k], vars, env, home))
  }

  lemma ContainsSingle(s: String, c: char)
    ensures Contains(s, [c]) <==> c in s
  {
    if c in s {
      var i :| 0 <= i < |s| && s[i] == c;
      assert OccursAt(s, [c], i);
    }
    if Contains(s, [c]) {
      var i: nat :| i <= |s| && OccursAt(s, [c], i);
      assert s[i] == c;
    }
  }

  lemma PrefixLacks(p: String, t: String, m: String)
    requires IsPrefix(p, t) && !Contains(t, m)
    ensures !Contains(p, m)
  {
    assert p == t[..|p|];
    NoOccurrenceInPrefix(t, m, |p|);
  }

  /** After a two-marker step the long marker is gone from the text. */
  lemma StepRemovesLong(t: String, long: String, short: String)
    requires long != [] && short != []
    ensures !Contains(RedirectStep(t, long, short).rest, long)
  {
    if !Contains(t, long) {
      PrefixLacks(RedirectStep(t, long, short).rest, t, long);
    }
  }

  /** When the long marker was absent, the short one is gone too. */
  lemma StepRemovesShort(t: String, long: String, short: String)
    requires long != [] && short != [] && !Contains(t, long)
    ensures !Contains(RedirectStep(t, long, short).rest, short)
  {
    if !Contains(t, short) {
      PrefixLacks(RedirectStep(t, long, short).rest, t, short);
    }
  }

  /** Whatever the text, the words never come from after a `<`, a `>>` or a
      `2>>`; a single `>` survives only when a `>>` cut the text before it. */
  lemma WorkingTextIsMarkerFree(t: String)
    ensures IsPrefix(WorkingText(t), t)
    ensures '<' !in WorkingText(t)
    ensures !Contains(WorkingText(t), ">>") && !Contains(WorkingText(t), "2>>")
    ensures !Contains(StripBackground(t).text, ">>") ==> '>' !in WorkingText(t)
  {
    var st := StripBackground(t).text;
    var e := RedirectStep(st, "2>>", "2>").rest;
    var o := RedirectStep(e, ">>", ">").rest;
    var w := InputStep(o).rest;
    assert WorkingText(t) == w;
    PrefixChain(w, o, e, st, t);
    LongMarkersGone(st);
    if !Contains(st, ">>") {
      ShortArrowGone(st);
    }
  }

  lemma PrefixChain(w: String, o: String, e: String, st: String, t: String)
    requires IsPrefix(w, o) && IsPrefix(o, e) && IsPrefix(e, st) && IsPrefix(st, t)
    ensures IsPrefix(w, t)
  {
    assert forall k :: 0 <= k < |w| ==> w[k] == o[k] == e[k] == st[k] == t[k];
  }

  /** Neither long marker survives the two redirect steps and the input step. */
  lemma LongMarkersGone(st: String)
    ensures var e := RedirectStep(st, "2>>", "2>").rest;
      var w := InputStep(RedirectStep(e, ">>", ">").rest).rest;
      !Contains(w, "2>>") && !Contains(w, ">>")
  {
    var e := RedirectStep(st, "2>>", "2>").rest;
    var o := RedirectStep(e, ">>", ">").rest;
    var w := InputStep(o).rest;
    StepRemovesLong(st, "2>>", "2>");
    PrefixLacks(o, e, "2>>");
    PrefixLacks(w, o, "2>>");
    StepRemovesLong(e, ">>", ">");
    PrefixLacks(w, o, ">>");
  }

  /** Without `>>`, the stdout step removes every `>`. */
  lemma ShortArrowGone(st: String)
    requires !Contains(st, ">>")
    ensures var e := RedirectStep(st, "2>>", "2>").rest;
      '>' !in InputStep(RedirectStep(e, ">>", ">").rest).rest
  {
    var e := RedirectStep(st, "2>>", "2>").rest;
    var o := RedirectStep(e, ">>", ">").rest;
    var w := InputStep(o).rest;
    PrefixLacks(e, st, ">>");
    StepRemovesShort(e, ">>", ">");
    PrefixLacks(w, o, ">");
    ContainsSingle(w, '>');
  }

  /** No stderr or stdout marker can start at or before the `<` that follows
      a text free of `>` and `<`. */
  lemma NoMarkerBeforeInput(x: String, a: String, m: String)
    requires IsPrefix(a + ['<'], x) && '>' !in a && '<' !in a
    requires (|m| >= 1 && m[0] == '>') || (|m| >= 2 && m[0] == '2' && m[1] == '>')
    ensures forall q: nat :: q <= |a| ==> !OccursAt(x, m, q)
  {
    assert x[|a|] == (a + ['<'])[|a|];
    forall q: nat | q <= |a|
      ensures !OccursAt(x, m, q)
    {
      if q + |m| <= |x| {
        var w := x[q..q + |m|];
        assert w[0] == x[q];
        if q < |a| {
          assert x[q] == a[q];
          if m[0] != '>' {
            assert w[1] == x[q + 1];
            if q + 1 < |a| {
              assert x[q + 1] == a[q + 1];
            }
          }
        }
      }
    }
  }

  /** A two-marker step never cuts into a leading `>`- and `<`-free text and
      the `<` after it. */
  lemma StepKeepsLeadingText(x: String, a: String, long: String, short: String)
    requires IsPrefix(a + ['<'], x) && '>' !in a && '<' !in a
    requires (long == "2>>" && short == "2>") || (long == ">>" && short == ">")
    ensures IsPrefix(a + ['<'], RedirectStep(x, long, short).rest)
  {
    var r := RedirectStep(x, long, short).rest;
    NoMarkerBeforeInput(x, a, long);
    NoMarkerBeforeInput(x, a, short);
    assert |r| > |a|;
    assert r == x[..|r|];
    assert r[..|a| + 1] == x[..|a| + 1];
  }

  /** The stdin step cuts at the `<` that follows a `<`-free text. */
  lemma InputStepAfter(o: String, a: String)
    requires IsPrefix(a + ['<'], o) && '<' !in a
    ensures InputStep(o).rest == a
  {
    assert o[|a|] == (a + ['<'])[|a|];
    assert forall j :: 0 <= j < |a| ==> o[j] == a[j];
    FindFromReaches(o, '<', 0, |a|);
    assert o[..|a|] == (a + ['<'])[..|a|];
  }

  /** Truncation at `<` discards everything after it: when the text before
      the first `<` holds no `>` and no `<`, the words are exactly that text's
      words, whatever follows (further markers included). */
  lemma TailAfterInputMarkerIgnored(a: String, b: String, home: String)
    requires '>' !in a && '<' !in a
    ensures var cmd := ParseExpanded(a + ['<'] + b, home);
      && |cmd.args| == |Tokenize(a)|
      && forall k :: 0 <= k < |cmd.args| ==> cmd.args[k] == ExpandPath(Tokenize(a)[k], home)
  {
    var t := a + ['<'] + b;
    var p := a + ['<'];
    var st := StripBackground(t).text;
    assert IsPrefix(p, st) by {
      assert t[..|p|] == p;
      if StripBackground(t).background {
        assert t[|a|] == '<' && !IsBlank(t[|a|]);
        assert |st| > |a|;
        assert st == t[..|st|];
      }
    }
    StepKeepsLeadingText(st, a, "2>>", "2>");
    var e := RedirectStep(st, "2>>", "2>").rest;
    StepKeepsLeadingText(e, a, ">>", ">");
    InputStepAfter(RedirectStep(e, ">>", ">").rest, a);
    assert WorkingText(t) == a;
  }

  /** Only a single `>`, not preceded by `2`: none of the other markers occur. */
  lemma OnlyOneArrow(t: String, p: nat)
    requires p < |t| && t[p] == '>'
    requires forall q :: 0 <= q < |t| && t[q] == '>' ==> q == p
    requires p == 0 || t[p - 1] != '2'
    ensures !Contains(t, ">>") && !Contains(t, "2>") && !Contains(t, "2>>")
    ensures OccursAt(t, ">", p)
  {
    forall q: nat | q <= |t|
      ensures !OccursAt(t, ">>", q) && !OccursAt(t, "2>", q) && !OccursAt(t, "2>>", q)
    {
      if q + 2 <= |t| {
        var w := t[q..q + 2];
        assert w[0] == t[q] && w[1] == t[q + 1];
        if q + 3 <= |t| {
          assert t[q..q + 3][..2] == w;
        }
      }
    }
    assert t[p..p + 1] == [t[p]];
  }

  /** The text `a> f` holds one marker, the `>` right after `a`. */
  lemma ArrowAfter(a: String, f: String)
    requires '>' !in a && (a == [] || a[|a| - 1] != '2') && '>' !in f
    ensures var t := a + ['>', ' '] + f;
      !Contains(t, ">>") && !Contains(t, "2>") && !Contains(t, "2>>") && OccursAt(t, ">", |a|)
  {
    var t := a + ['>', ' '] + f;
    forall q | 0 <= q < |t| && q != |a|
      ensures t[q] != '>'
    {
      if q < |a| {
        assert t[q] == a[q];
      } else if q > |a| + 1 {
        assert t[q] == f[q - |a| - 2];
      }
    }
    if a != [] {
      assert t[|a| - 1] == a[|a| - 1];
    }
    OnlyOneArrow(t, |a|);
  }

  /** A plain word after one space is the first word. */
  lemma SpacedWord(f: String)
    requires f != [] && Plain(f)
    ensures FirstWord([' '] + f) == f
  {
    PlainRun(f, [], []);
    assert f + [] == f && [] + f == f;
    assert Scan([], None, f) == [f];
    assert ([' '] + f)[1..] == f;
  }

  lemma OutputStepOf(a: String, f: String)
    requires '>' !in a && (a == [] || a[|a| - 1] != '2')
    requires f != [] && Plain(f) && '>' !in f
    ensures var t := a + ['>', ' '] + f;
      RedirectStep(t, "2>>", "2>") == Redirect([], false, t) &&
      RedirectStep(t, ">>", ">") == Redirect(f, false, a)
  {
    var t := a + ['>', ' '] + f;
    ArrowAfter(a, f);
    OutputCutAfter(a, f);
    assert t[|a| + 1..] == [' '] + f;
    SpacedWord(f);
  }

  /** The stdout step cuts `a> f` right after `a`. */
  lemma OutputCutAfter(a: String, f: String)
    requires '>' !in a && (a == [] || a[|a| - 1] != '2') && '>' !in f
    ensures RedirectStep(a + ['>', ' '] + f, ">>", ">").rest == a
  {
    var t := a + ['>', ' '] + f;
    ArrowAfter(a, f);
    var r := RedirectStep(t, ">>", ">");
    assert t[|r.rest|..|r.rest| + 1][0] == t[|r.rest|];
    assert |r.rest| == |a|;
    assert t[..|a|] == a;
  }

  /** A stdout target is taken verbatim: a leading `~` in it is not expanded,
      while the words before the marker are. */
  lemma OutputTargetVerbatim(a: String, f: String, home: String)
    requires '>' !in a && '<' !in a && (a == [] || a[|a| - 1] != '2')
    requires f != [] && Plain(f) && '>' !in f && f[|f| - 1] != '&'
    ensures var cmd := ParseExpanded(a + ['>', ' '] + f, home);
      && cmd.outputFile == f
      && !cmd.appendOutput
      && cmd.errorFile == [] && cmd.inputFile == [] && !cmd.background
      && |cmd.args| == |Tokenize(a)|
      && forall k :: 0 <= k < |cmd.args| ==> cmd.args[k] == ExpandPath(Tokenize(a)[k], home)
  {
    var t := a + ['>', ' '] + f;
    assert t[|t| - 1] == f[|f| - 1];
    assert StripBackground(t) == Stripped(t, false);
    OutputStepOf(a, f);
    assert InputStep(a) == Cut([], a);
    assert WorkingText(t) == a;
  }

  /** A segment without `<` or `>` has no redirection, and the argument
      words are those of the text with the background marker stripped. */
  lemma {:induction false} NoMarkersNoRedirection(t: String, home: String)
    requires '>' !in t && '<' !in t
    ensures var cmd := ParseExpanded(t, home);
      && cmd.inputFile == [] && cmd.outputFile == [] && cmd.errorFile == []
      && !cmd.appendOutput && !cmd.appendError
      && WorkingText(t) == StripBackground(t).text
  {
    var st := StripBackground(t).text;
    assert forall k :: 0 <= k < |st| ==> st[k] == t[k];
    assert '>' !in st && '<' !in st;
    LacksMarker(st, "2>>", '>');
    LacksMarker(st, "2>", '>');
    var e := RedirectStep(st, "2>>", "2>");
    assert e == Redirect([], false, st);
    LacksMarker(st, ">>", '>');
    LacksMarker(st, ">", '>');
    var o := RedirectStep(e.rest, ">>", ">");
    assert o == Redirect([], false, st);
    assert InputStep(st) == Cut([], st);
  }
}

=== FILE: text.dfy ===
/** Character classes and the std::string searches the shell relies on
    (find, find of a substring, getline splitting, joining). */
module Text {
  import opened Outcomes

  type String = seq<char>

  /** std::isspace in the "C" locale: space, \t, \n, \v, \f, \r. */
  predicate IsSpace(c: char) {
    c == ' ' || ('\t' <= c <= '\r')
  }

  /** The set " \t" given to find_last_not_of. */
  predicate IsBlank(c: char) {
    c == ' ' || c == '\t'
  }

  predicate IsQuote(c: char) {
    c == '"' || c == '\''
  }

  predicate IsPrefix(p: String, s: String) {
    |p| <= |s| && s[..|p|] == p
  }

  /** `p` occurs in `s` starting at index `i`. */
  predicate OccursAt(s: String, p: String, i: nat) {
    i + |p| <= |s| && s[i..i + |p|] == p
  }

  predicate Contains(s: String, p: String) {
    exists i: nat :: i <= |s| && OccursAt(s, p, i)
  }

  /** Number of occurrences of `c` in `s`. */
  function Count(s: String, c: char): nat {
    multiset(s)[c]
  }

  /** s.find(c, from): the first index at or after `from` holding `c`. */
  function FindFrom(s: String, c: char, from: nat): (r: Option<nat>)
    requires from <= |s|
    ensures r.Some? ==> from <= r.value < |s| && s[r.value] == c
    ensures r.Some? ==> forall j :: from <= j < r.value ==> s[j] != c
    ensures r.None? ==> forall j :: from <= j < |s| ==> s[j] != c
    decreases |s| - from
  {
    if from == |s| then None
    else if s[from] == c then Some(from)
    else FindFrom(s, c, from + 1)
  }

  /** s.find(c): the first index holding `c`, None for npos. */
  function Find(s: String, c: char): (r: Option<nat>)
    ensures r.None? <==> c !in s
    ensures r.Some? ==> r.value < |s| && s[r.value] == c && c !in s[..r.value]
  {
    FindFrom(s, c, 0)
  }

  /** The search reaches the first `c` at or after `from`. */
  lemma {:induction false} FindFromReaches(s: String, c: char, from: nat, n: nat)
    requires from <= n < |s| && s[n] == c
    requires forall j :: from <= j < n ==> s[j] != c
    ensures FindFrom(s, c, from) == Some(n)
    decreases n - from
  {
    if from < n {
      FindFromReaches(s, c, from + 1, n);
    }
  }

  /** s.find(p, from) for a substring `p`. */
  function FindSubFrom(s: String, p: String, from: nat): (r: Option<nat>)
    ensures r.Some? ==> from <= r.value && OccursAt(s, p, r.value)
    ensures r.Some? ==> forall j: nat :: from <= j < r.value ==> !OccursAt(s, p, j)
    ensures r.None? ==> forall j: nat :: from <= j ==> !OccursAt(s, p, j)
    decreases |s| - from
  {
    if from + |p| > |s| then None
    else if s[from..from + |p|] == p then Some(from)
    else FindSubFrom(s, p, from + 1)
  }

  /** s.find(p): the first occurrence of a substring, None for npos. */
  function FindSub(s: String, p: String): (r: Option<nat>)
    ensures r.None? <==> !Contains(s, p)
    ensures r.Some? ==> OccursAt(s, p, r.value)
    ensures r.Some? ==> forall j: nat :: j < r.value ==> !OccursAt(s, p, j)
  {
    FindSubFrom(s, p, 0)
  }

  /** An occurrence inside a prefix is an occurrence in the whole text. */
  lemma OccursInPrefix(s: String, p: String, n: nat, i: nat)
    requires n <= |s|
    requires OccursAt(s[..n], p, i)
    ensures OccursAt(s, p, i)
  {
    assert s[..n][i..i + |p|] == s[i..i + |p|];
  }

  /** Cutting at the first occurrence of `p` leaves a text without `p`. */
  lemma PrefixBeforeFirstOccurrence(s: String, p: String, n: nat)
    requires n <= |s| && |p| > 0
    requires forall j: nat :: j < n ==> !OccursAt(s, p, j)
    ensures !Contains(s[..n], p)
  {
    if Contains(s[..n], p) {
      var i: nat :| i <= n && OccursAt(s[..n], p, i);
      OccursInPrefix(s, p, n, i);
      assert false;
    }
  }

  /** A prefix of a text that lacks `p` lacks `p` too. */
  lemma NoOccurrenceInPrefix(s: String, p: String, n: nat)
    requires n <= |s|
    requires !Contains(s, p)
    ensures !Contains(s[..n], p)
  {
    if Contains(s[..n], p) {
      var i: nat :| i <= n && OccursAt(s[..n], p, i);
      OccursInPrefix(s, p, n, i);
    }
  }

  /** Joins words, putting `d` between consecutive ones. */
  function JoinWith(ws: seq<String>, d: char): String {
    if |ws| == 0 then []
    else if |ws| == 1 then ws[0]
    else ws[0] + [d] + JoinWith(ws[1..], d)
  }

  /** The words one after another, with nothing between them. */
  function Concat(ws: seq<String>): String {
    if ws == [] then [] else ws[0] + Concat(ws[1..])
  }

  lemma {:induction false} ConcatAppend(a: seq<String>, b: seq<String>)
    ensures Concat(a + b) == Concat(a) + Concat(b)
  {
    if a != [] {
      assert (a + b)[1..] == a[1..] + b;
      ConcatAppend(a[1..], b);
    } else {
      assert a + b == b;
    }
  }

  lemma {:induction false} JoinWithSnoc(ws: seq<String>, w: String, d: char)
    requires |ws| >= 1
    ensures JoinWith(ws + [w], d) == JoinWith(ws, d) + [d] + w
  {
    if |ws| == 1 {
      assert ws + [w] == [ws[0], w];
    } else {
      assert (ws + [w])[1..] == ws[1..] + [w];
      JoinWithSnoc(ws[1..], w, d);
    }
  }

  /** Every piece between occurrences of `d`, so |r| == Count(s, d) + 1. */
  function SplitOn(s: String, d: char): (r: seq<String>)
    ensures |r| >= 1
    ensures forall k :: 0 <= k < |r| ==> d !in r[k]
    ensures JoinWith(r, d) == s
    ensures r[|r| - 1] == [] <==> (s == [] || s[|s| - 1] == d)
    decreases |s|
  {
    match Find(s, d)
    case None => [s]
    case Some(i) =>
      var rest := SplitOn(s[i + 1..], d);
      assert s[..i] + [d] + s[i + 1..] == s;
      [s[..i]] + rest
  }

  /** Splitting joined fields that hold no delimiter gives the fields back. */
  lemma {:induction false} SplitOnJoin(ds: seq<String>, d: char)
    requires |ds| >= 1
    requires forall k :: 0 <= k < |ds| ==> d !in ds[k]
    ensures SplitOn(JoinWith(ds, d), d) == ds
    decreases |ds|
  {
    if |ds| == 1 {
      assert Find(ds[0], d) == None;
    } else {
      var tail := JoinWith(ds[1..], d);
      SplitOnAfterField(ds[0], tail, d);
      SplitOnJoin(ds[1..], d);
      assert ds == [ds[0]] + ds[1..];
    }
  }

  /** A field without the delimiter, the delimiter, then the rest: the field
      is split off first. */
  lemma SplitOnAfterField(a: String, b: String, d: char)
    requires d !in a
    ensures SplitOn(a + [d] + b, d) == [a] + SplitOn(b, d)
  {
    var s := a + [d] + b;
    assert forall j :: 0 <= j < |a| ==> s[j] == a[j];
    FindFromReaches(s, d, 0, |a|);
    assert s[..|a|] == a && s[|a| + 1..] == b;
  }

  lemma {:induction false} SplitOnCount(s: String, d: char)
    ensures |SplitOn(s, d)| == Count(s, d) + 1
    decreases |s|
  {
    match Find(s, d)
    case None =>
    case Some(i) =>
      SplitOnCount(s[i + 1..], d);
      assert s == s[..i] + [d] + s[i + 1..];
      assert multiset(s) == multiset(s[..i]) + multiset([d]) + multiset(s[i + 1..]);
      assert d !in multiset(s[..i]);
  }

  /** The pieces std::getline(stream, piece, d) produces: one per `d`-separated
      field, except that a final empty field (text empty or ending in `d`) is
      not produced. */
  function GetlineSplit(s: String, d: char): (r: seq<String>)
    ensures s == [] ==> r == []
    ensures forall k :: 0 <= k < |r| ==> d !in r[k]
  {
    var p := SplitOn(s, d);
    if p[|p| - 1] == [] then p[..|p| - 1] else p
  }

  /** The getline pieces rejoined give the text back (bar a trailing `d`), and
      there are Count(s, d) + 1 of them unless the text is empty or ends in `d`. */
  lemma GetlineSplitRoundTrip(s: String, d: char)
    ensures s != [] && s[|s| - 1] == d ==> JoinWith(GetlineSplit(s, d), d) + [d] == s
    ensures s != [] && s[|s| - 1] != d ==> JoinWith(GetlineSplit(s, d), d) == s
    ensures |GetlineSplit(s, d)| ==
      if s != [] && s[|s| - 1] != d then Count(s, d) + 1 else Count(s, d)
  {
    SplitOnCount(s, d);
    if s != [] && s[|s| - 1] == d {
      GetlineSplitJoin(s, d);
    }
  }

  lemma GetlineSplitJoin(s: String, d: char)
    requires s != [] && s[|s| - 1] == d
    ensures JoinWith(GetlineSplit(s, d), d) + [d] == s
  {
    var p := SplitOn(s, d);
    var init := p[..|p| - 1];
    assert d in s;
    assert |p| >= 2;
    assert p == init + [p[|p| - 1]];
    JoinWithSnoc(init, [], d);
  }

  /** The text with every `c` removed. */
  function Remove(s: String, c: char): (r: String)
    ensures c !in r
  {
    if s == [] then [] else (if s[0] == c then [] else [s[0]]) + Remove(s[1..], c)
  }

  lemma {:induction false} RemoveAppend(a: String, b: String, c: char)
    ensures Remove(a + b, c) == Remove(a, c) + Remove(b, c)
  {
    if a != [] {
      assert (a + b)[1..] == a[1..] + b;
      RemoveAppend(a[1..], b, c);
    } else {
      assert a + b == b;
    }
  }
}

=== FILE: tokenizer.dfy ===
/** The quote-aware word splitter `tokenize` (jshell.cpp). A `"` or `'`
    outside quotes opens a quoted region that only the same character closes;
    white space outside quotes ends the current word; every other character,
    including the other kind of quote inside a region, joins the word. */
module Tokenizer {
  import opened Outcomes
  import opened Text

  /** The word under construction is emitted only when it is non-empty. */
  function Flush(cur: String): (r: seq<String>)
    ensures forall k :: 0 <= k < |r| ==> r[k] != []
  {
    if cur == [] then [] else [cur]
  }

  /** The scanner state: `quote` is the character that opened the current
      quoted region (None outside quotes), `cur` the word built so far. */
  function Scan(s: String, quote: Option<char>, cur: String): (words: seq<String>)
    ensures forall k :: 0 <= k < |words| ==> words[k] != []
    decreases |s|
  {
    if s == [] then Flush(cur)
    else
      var c := s[0];
      if quote.None? && IsQuote(c) then Scan(s[1..], Some(c), cur)
      else if quote.Some? && c == quote.value then Scan(s[1..], None, cur)
      else if quote.None? && IsSpace(c) then Flush(cur) + Scan(s[1..], None, [])
      else Scan(s[1..], quote, cur + [c])
  }

  /** The characters that end up in some word: the input without the quote
      characters that open or close a region and without white space outside
      quotes, in their original order. */
  function Kept(s: String, quote: Option<char>): String
    decreases |s|
  {
    if s == [] then []
    else
      var c := s[0];
      if quote.None? && IsQuote(c) then Kept(s[1..], Some(c))
      else if quote.Some? && c == quote.value then Kept(s[1..], None)
      else if quote.None? && IsSpace(c) then Kept(s[1..], None)
      else [c] + Kept(s[1..], quote)
  }

  function Tokenize(s: String): (words: seq<String>)
    ensures forall k :: 0 <= k < |words| ==> words[k] != []
    ensures Concat(words) == Kept(s, None)
  {
    ScanKeepsCharacters(s, None, []);
    Scan(s, None, [])
  }

  /** The first word of a text, or the empty string when it has none. */
  function FirstWord(s: String): (w: String)
    ensures w == [] <==> Tokenize(s) == []
    ensures w != [] ==> w == Tokenize(s)[0]
  {
    var words := Tokenize(s);
    if words == [] then [] else words[0]
  }

  lemma {:induction false} ScanKeepsCharacters(s: String, quote: Option<char>, cur: String)
    ensures Concat(Scan(s, quote, cur)) == cur + Kept(s, quote)
    decreases |s|
  {
    if s == [] {
      assert Concat(Flush(cur)) == cur;
    } else {
      var c := s[0];
      if quote.None? && IsQuote(c) {
        ScanKeepsCharacters(s[1..], Some(c), cur);
      } else if quote.Some? && c == quote.value {
        ScanKeepsCharacters(s[1..], None, cur);
      } else if quote.None? && IsSpace(c) {
        ConcatAppend(Flush(cur), Scan(s[1..], None, []));
        ScanKeepsCharacters(s[1..], None, []);
        assert Concat(Flush(cur)) == cur;
      } else {
        ScanKeepsCharacters(s[1..], quote, cur + [c]);
      }
    }
  }

  /** Inside a region opened by `q`, everything up to the closing `q` (white
      space and the other quote included) is added to the word, and scanning
      resumes outside quotes after it. */
  lemma {:induction false} QuotedRegion(t: String, q: char, rest: String, cur: String)
    requires IsQuote(q) && q !in t
    ensures Scan(t + [q] + rest, Some(q), cur) == Scan(rest, None, cur + t)
    decreases |t|
  {
    if t == [] {
      assert t + [q] + rest == [q] + rest;
      assert ([q] + rest)[1..] == rest;
      assert cur + t == cur;
    } else {
      assert (t + [q] + rest)[0] == t[0];
      assert (t + [q] + rest)[1..] == t[1..] + [q] + rest;
      QuotedRegion(t[1..], q, rest, cur + [t[0]]);
      assert cur + [t[0]] + t[1..] == cur + t;
    }
  }

  /** An unterminated quote runs to the end of the input. */
  lemma {:induction false} UnterminatedQuote(t: String, q: char, cur: String)
    requires IsQuote(q) && q !in t
    ensures Scan(t, Some(q), cur) == Flush(cur + t)
    decreases |t|
  {
    if t == [] {
      assert cur + t == cur;
    } else {
      UnterminatedQuote(t[1..], q, cur + [t[0]]);
      assert cur + [t[0]] + t[1..] == cur + t;
    }
  }

  /** A quoted word is one word holding exactly the quoted characters, even
      when they include white space or the other kind of quote. */
  lemma QuotedWord(t: String, q: char)
    requires IsQuote(q) && q !in t && t != []
    ensures Tokenize([q] + t + [q]) == [t]
  {
    var s := [q] + t + [q];
    assert s[1..] == t + [q] + [];
    QuotedRegion(t, q, [], []);
    assert [] + t == t;
  }

  /** An opening quote with no partner keeps the rest of the input as the
      final word. */
  lemma OpenQuoteToEnd(t: String, q: char)
    requires IsQuote(q) && q !in t && t != []
    ensures Tokenize([q] + t) == [t]
  {
    assert ([q] + t)[1..] == t;
    UnterminatedQuote(t, q, []);
    assert [] + t == t;
  }

  /** A word with no white space and no quote characters. */
  predicate Plain(w: String) {
    forall k :: 0 <= k < |w| ==> !IsSpace(w[k]) && !IsQuote(w[k])
  }

  lemma {:induction false} PlainRun(w: String, rest: String, cur: String)
    requires Plain(w)
    ensures Scan(w + rest, None, cur) == Scan(rest, None, cur + w)
    decreases |w|
  {
    if w == [] {
      assert w + rest == rest;
      assert cur + w == cur;
    } else {
      assert (w + rest)[0] == w[0];
      assert (w + rest)[1..] == w[1..] + rest;
      PlainRun(w[1..], rest, cur + [w[0]]);
      assert cur + [w[0]] + w[1..] == cur + w;
    }
  }

  /** Words joined by single spaces split back into the same words, when no
      word is empty or holds white space or a quote. */
  lemma {:induction false} TokenizeJoined(ws: seq<String>)
    requires forall k :: 0 <= k < |ws| ==> ws[k] != [] && Plain(ws[k])
    ensures Tokenize(JoinWith(ws, ' ')) == ws
    decreases |ws|
  {
    if |ws| == 1 {
      PlainRun(ws[0], [], []);
      assert ws[0] + [] == ws[0];
      assert [] + ws[0] == ws[0];
      assert Scan([], None, ws[0]) == [ws[0]];
      assert ws == [ws[0]];
    } else if |ws| > 1 {
      var tail := JoinWith(ws[1..], ' ');
      assert JoinWith(ws, ' ') == ws[0] + ([' '] + tail);
      PlainRun(ws[0], [' '] + tail, []);
      assert ([' '] + tail)[1..] == tail;
      TokenizeJoined(ws[1..]);
      assert [] + ws[0] == ws[0];
      assert ws == [ws[0]] + ws[1..];
    }
  }
}

=== FILE: v1.dfy ===
/** The earlier version of the shell (v1/jshell.cpp): its tokenizer, command
    parser, line splitter, flag parser, `alias`, the alias rewrite and exit
    code of `execute`, and the command line `launch` builds. Each is stated
    on its own and then set beside its counterpart in the current version. */
module ShellV1 {
  import opened Outcomes
  import opened Text
  import opened Tokenizer
  import opened Expansion
  import Parser
  import Args
  import Variables
  import Launch
  import Execute
  import Builtins

  /** v1's Command: no append, error-stream or background fields. */
  datatype Command = Command(args: seq<String>, inputFile: String, outputFile: String)

  // ---------------------------------------------------------------- tokenize

  /** v1's scanner: only `"` toggles quoting, and `'` is an ordinary character. */
  function Scan(s: String, inQuotes: bool, cur: String): (words: seq<String>)
    ensures forall k :: 0 <= k < |words| ==> words[k] != []
    ensures '"' !in cur ==> forall k :: 0 <= k < |words| ==> '"' !in words[k]
    decreases |s|
  {
    if s == [] then Flush(cur)
    else
      var c := s[0];
      if c == '"' then Scan(s[1..], !inQuotes, cur)
      else if IsSpace(c) && !inQuotes then Flush(cur) + Scan(s[1..], false, [])
      else Scan(s[1..], inQuotes, cur + [c])
  }

  /** v1's `tokenize`: never an empty word, never a `"` in a word. */
  function Tokenize(s: String): (words: seq<String>)
    ensures forall k :: 0 <= k < |words| ==> words[k] != [] && '"' !in words[k]
  {
    Scan(s, false, [])
  }

  /** Without `'` the two scanners walk in step, `inQuotes` standing for a
      region opened by `"`. */
  lemma {:induction false} ScanAgrees(s: String, inQuotes: bool, cur: String)
    requires '\'' !in s
    ensures Scan(s, inQuotes, cur) == Tokenizer.Scan(s, if inQuotes then Some('"') else None, cur)
    decreases |s|
  {
    if s != [] {
      assert '\'' !in s[1..] by {
        assert forall k :: 0 <= k < |s[1..]| ==> s[1..][k] == s[k + 1];
      }
      var c := s[0];
      if c == '"' {
        ScanAgrees(s[1..], !inQuotes, cur);
      } else if IsSpace(c) && !inQuotes {
        ScanAgrees(s[1..], false, []);
      } else {
        ScanAgrees(s[1..], inQuotes, cur + [c]);
      }
    }
  }

  /** On text without `'` both versions' `tokenize` return the same words. */
  lemma TokenizeAgrees(s: String)
    requires '\'' !in s
    ensures Tokenize(s) == Tokenizer.Tokenize(s)
  {
    ScanAgrees(s, false, []);
  }

  /** The versions differ on `'`: v1 keeps it and splits inside it. */
  lemma SingleQuoteIsLiteral()
    ensures Tokenize("'a b'") == ["'a", "b'"]
    ensures Tokenizer.Tokenize("'a b'") == ["a b"]
  {
    assert "'a b'" == JoinWith(["'a", "b'"], ' ');
    TokenizeJoinedV1(["'a", "b'"]);
    Tokenizer.QuotedWord("a b", '\'');
    assert ['\''] + "a b" + ['\''] == "'a b'";
  }

  /** The first word of a text, or "" when it has none. */
  function FirstWord(s: String): (w: String)
    ensures w == [] <==> Tokenize(s) == []
    ensures w != [] ==> w == Tokenize(s)[0]
  {
    var ws := Tokenize(s);
    if ws == [] then [] else ws[0]
  }

  // ---------------------------------------------------- parse_single_command

  /** Where the argument text ends: the first `>` or `<`, or the end. */
  function Cutoff(text: String): (n: nat)
    ensures n <= |text| && '>' !in text[..n] && '<' !in text[..n]
    ensures n < |text| ==> text[n] == '>' || text[n] == '<'
  {
    var o := Find(text, '>');
    var i := Find(text, '<');
    if o.Some? && (i.None? || o.value < i.value) then o.value
    else if i.Some? then i.value
    else |text|
  }

  /** `parse_single_command`. The output file is the first word after the
      first `>`, and the text is cut there; then the input file is the first
      word after the first `<` of the ORIGINAL text, taken from the cut text.
      When that `<` lies after the `>`, the cut text is shorter than the
      position and substr throws out_of_range. */
  function ParseSingle(text: String): (r: Result<Command>)
    ensures r.Fail? ==> r.fault == OutOfRange
    ensures r.Fail? <==> '>' in text && '<' in text && Find(text, '<').value > Find(text, '>').value
    ensures r.Ok? ==> r.value.args == Tokenize(text[..Cutoff(text)])
    ensures r.Ok? && '>' !in text ==> r.value.outputFile == []
    ensures r.Ok? && '>' in text ==> r.value.outputFile == FirstWord(text[Find(text, '>').value + 1..])
    ensures r.Ok? && '<' !in text ==> r.value.inputFile == []
    ensures r.Ok? && '<' in text ==>
      var end := if '>' in text then Find(text, '>').value else |text|;
      var i := Find(text, '<').value;
      i < end && r.value.inputFile == FirstWord(text[i + 1..end])
  {
    var o := Find(text, '>');
    var t := if o.Some? then text[..o.value] else text;
    var out := if o.Some? then FirstWord(text[o.value + 1..]) else [];
    match Find(text, '<')
    case None =>
      assert text[..|text|] == text;
      Ok(Command(Tokenize(t), [], out))
    case Some(i) =>
      if i + 1 > |t| then Fail(OutOfRange)
      else
        assert t[i + 1..] == text[i + 1..|t|];
        assert t[..i] == text[..i];
        Ok(Command(Tokenize(t[..i]), FirstWord(t[i + 1..]), out))
  }

  /** v1 has no `2>` form: `cmd 2> err` sends standard output to `err` and
      passes `2` as an argument. */
  lemma ErrorMarkerNotRecognised()
    ensures ParseSingle("cmd 2> err") == Ok(Command(["cmd", "2"], [], "err"))
  {
    var text := "cmd 2> err";
    assert Find(text, '>') == Some(5) by {
      FindFromReaches(text, '>', 0, 5);
    }
    assert '<' !in text;
    assert Tokenize(text[..5]) == ["cmd", "2"] by {
      assert text[..5] == JoinWith(["cmd", "2"], ' ');
      TokenizeJoinedV1(["cmd", "2"]);
    }
    assert Tokenize(text[6..]) == ["err"] by {
      assert text[6..] == [' '] + "err";
      LeadingSpace("err");
      TokenizeJoinedV1(["err"]);
    }
  }

  lemma LeadingSpace(s: String)
    ensures Tokenize([' '] + s) == Tokenize(s)
  {
    assert ([' '] + s)[1..] == s;
  }

  /** A word v1 reads as it stands: no white space and no `"`. */
  predicate Bare(w: String) {
    forall k :: 0 <= k < |w| ==> !IsSpace(w[k]) && w[k] != '"'
  }

  lemma {:induction false} BareRun(w: String, rest: String, cur: String)
    requires Bare(w)
    ensures Scan(w + rest, false, cur) == Scan(rest, false, cur + w)
    decreases |w|
  {
    if w == [] {
      assert w + rest == rest;
      assert cur + w == cur;
    } else {
      assert (w + rest)[0] == w[0];
      assert (w + rest)[1..] == w[1..] + rest;
      BareRun(w[1..], rest, cur + [w[0]]);
      assert cur + [w[0]] + w[1..] == cur + w;
    }
  }

  /** Words without white space or `"`, joined by single spaces, split back
      into the same words; `'` included. */
  lemma {:induction false} TokenizeJoinedV1(ws: seq<String>)
    requires forall k :: 0 <= k < |ws| ==> ws[k] != [] && Bare(ws[k])
    ensures Tokenize(JoinWith(ws, ' ')) == ws
    decreases |ws|
  {
    if |ws| == 1 {
      BareRun(ws[0], [], []);
      assert ws[0] + [] == ws[0];
      assert [] + ws[0] == ws[0];
      assert ws == [ws[0]];
    } else if |ws| > 1 {
      var tail := JoinWith(ws[1..], ' ');
      assert JoinWith(ws, ' ') == ws[0] + ([' '] + tail);
      BareRun(ws[0], [' '] + tail, []);
      assert ([' '] + tail)[1..] == tail;
      TokenizeJoinedV1(ws[1..]);
      assert [] + ws[0] == ws[0];
      assert ws == [ws[0]] + ws[1..];
    }
  }

  // -------------------------------------------------------------- split_line

  /** Each segment parsed in order; the first one that throws ends the line. */
  function ParseAll(segments: seq<String>): (r: Result<seq<Command>>)
    ensures r.Ok? <==> forall k :: 0 <= k < |segments| ==> ParseSingle(segments[k]).Ok?
    ensures r.Fail? ==> r.fault == OutOfRange
    ensures r.Ok? ==> |r.value| == |segments|
    ensures r.Ok? ==> forall k :: 0 <= k < |segments| ==> r.value[k] == ParseSingle(segments[k]).value
  {
    if segments == [] then Ok([])
    else match (ParseSingle(segments[0]), ParseAll(segments[1..]))
      case (Fail(f), _) => Fail(f)
      case (Ok(c), Fail(f)) => Fail(f)
      case (Ok(c), Ok(cs)) => Ok([c] + cs)
  }

  /** `split_line`: the empty line has no commands; otherwise one command per
      `|`-separated segment, a `|` inside quotes splitting all the same. */
  function SplitLine(line: String): (r: Result<seq<Command>>)
    ensures line == [] ==> r == Ok([])
    ensures r.Ok? ==> |r.value| == |GetlineSplit(line, '|')|
    ensures r.Fail? <==> exists k :: 0 <= k < |GetlineSplit(line, '|')| && ParseSingle(GetlineSplit(line, '|')[k]).Fail?
  {
    if line == [] then Ok([]) else ParseAll(GetlineSplit(line, '|'))
  }

  /** `cmd > out < in` throws, where the current version reads both files. */
  lemma InputAfterOutputThrows(a: String, o: String, i: String)
    requires '>' !in a && '<' !in a && '>' !in o && '<' !in o && '|' !in a + o + i
    ensures SplitLine(a + ['>'] + o + ['<'] + i).Fail?
  {
    var text := a + ['>'] + o + ['<'] + i;
    FindFromReaches(text, '>', 0, |a|);
    assert forall j :: 0 <= j < |a| + 1 + |o| ==> text[j] != '<' by {
      assert forall j :: 0 <= j < |a| ==> text[j] == a[j];
      assert forall j :: |a| < j < |a| + 1 + |o| ==> text[j] == o[j - |a| - 1];
    }
    FindFromReaches(text, '<', 0, |a| + 1 + |o|);
    assert ParseSingle(text).Fail?;
    assert '|' !in text;
    assert SplitOn(text, '|') == [text];
    assert GetlineSplit(text, '|') == [text];
  }

  // -------------------------------------------------------------- parse_args

  /** v1's parse_args result: single-character flags and positional words. */
  datatype Parsed = Parsed(flags: set<char>, positional: seq<String>)

  /** A word that sets flags: it starts with `-` and is longer than one. */
  predicate IsFlagWord(w: String) {
    |w| > 1 && w[0] == '-'
  }

  function Absorb(p: Parsed, w: String): Parsed {
    if IsFlagWord(w) then p.(flags := p.flags + set c | c in w[1..])
    else p.(positional := p.positional + [w])
  }

  function ParseWords(ws: seq<String>): Parsed {
    if ws == [] then Parsed({}, []) else Absorb(ParseWords(ws[..|ws| - 1]), ws[|ws| - 1])
  }

  /** `parse_args`: args[0] is the command name and is skipped. */
  function ParseArgs(args: seq<String>): (p: Parsed)
    ensures |args| <= 1 ==> p == Parsed({}, [])
  {
    if args == [] then Parsed({}, []) else ParseWords(args[1..])
  }

  /** A flag is set exactly when some flag word carries it. */
  lemma {:induction false} FlagMembership(ws: seq<String>, c: char)
    ensures c in ParseWords(ws).flags <==>
      exists i :: 0 <= i < |ws| && IsFlagWord(ws[i]) && c in ws[i][1..]
  {
    if ws != [] {
      var init := ws[..|ws| - 1];
      FlagMembership(init, c);
      if c in ParseWords(ws).flags && c !in ParseWords(init).flags {
        assert IsFlagWord(ws[|ws| - 1]) && c in ws[|ws| - 1][1..];
      }
      if exists i :: 0 <= i < |ws| && IsFlagWord(ws[i]) && c in ws[i][1..] {
        var i :| 0 <= i < |ws| && IsFlagWord(ws[i]) && c in ws[i][1..];
        if i < |ws| - 1 {
          assert init[i] == ws[i];
        }
      }
    }
  }

  /** Without `--` words both versions read the same flags and positional
      words, and the current one sees no long flags. */
  lemma {:induction false} ParseWordsAgrees(ws: seq<String>)
    requires forall k :: 0 <= k < |ws| ==> !Args.IsLongWord(ws[k])
    ensures ParseWords(ws).flags == Args.ParseWords(ws).flags
    ensures ParseWords(ws).positional == Args.ParseWords(ws).positional
    ensures Args.ParseWords(ws).longFlags == map[]
  {
    if ws != [] {
      var init := ws[..|ws| - 1];
      ParseWordsAgrees(init);
      var w := ws[|ws| - 1];
      assert !Args.IsLongWord(w);
      assert IsFlagWord(w) <==> Args.IsShortWord(w);
    }
  }

  /** In v1 `--name` is just a flag word: it sets `-` and the letters. */
  lemma LongWordIsFlags(ws: seq<String>, i: nat, c: char)
    requires i < |ws| && Args.IsLongWord(ws[i]) && c in ws[i][1..]
    ensures c in ParseWords(ws).flags && '-' in ParseWords(ws).flags
  {
    FlagMembership(ws, c);
    assert ws[i][1..][0] == '-';
    FlagMembership(ws, '-');
  }

  // ------------------------------------------------------------------- alias

  /** Every word followed by one space. */
  function SpaceTerminated(ws: seq<String>): String {
    if ws == [] then [] else ws[0] + [' '] + SpaceTerminated(ws[1..])
  }

  /** The alias text: the words after `alias`, each with a space, then the
      last character popped. */
  function AliasText(args: seq<String>): String
    requires |args| >= 1
  {
    var s := SpaceTerminated(args[1..]);
    if s == [] then [] else s[..|s| - 1]
  }

  lemma {:induction false} SpaceTerminatedIsJoin(ws: seq<String>)
    requires ws != []
    ensures SpaceTerminated(ws) == JoinWith(ws, ' ') + [' ']
  {
    if |ws| > 1 {
      SpaceTerminatedIsJoin(ws[1..]);
    }
  }

  /** Popping the last space is joining with single spaces, as the current
      version does. */
  lemma AliasTextIsJoin(args: seq<String>)
    requires |args| >= 1
    ensures AliasText(args) == Variables.AliasText(args)
  {
    if |args| > 1 {
      SpaceTerminatedIsJoin(args[1..]);
    }
  }

  /** `alias`: the table after the call; the code is always 1. */
  function Alias(aliases: Table, args: seq<String>): (r: (int, Table))
    requires |args| >= 1
    ensures r.0 == 1
    ensures |args| == 1 || '=' !in AliasText(args) ==> r.1 == aliases
    ensures |args| > 1 && '=' in AliasText(args) ==>
      var t := AliasText(args);
      exists e :: 0 <= e < |t| && t[e] == '=' && '=' !in t[..e] &&
        r.1 == aliases[t[..e] := Variables.StripQuotes(t[e + 1..])]
  {
    if |args| == 1 then (1, aliases)
    else
      var t := AliasText(args);
      match Find(t, '=')
      case None => (1, aliases)
      case Some(e) => (1, aliases[t[..e] := Variables.StripQuotes(t[e + 1..])])
  }

  /** Both versions leave the same alias table; only the exit code differs. */
  lemma AliasAgrees(aliases: Table, args: seq<String>)
    requires |args| >= 1
    ensures Alias(aliases, args).1 == Variables.AliasBuiltin(aliases, args).aliases
  {
    AliasTextIsJoin(args);
  }

  // ----------------------------------------------------------------- execute

  /** The first command's head replaced, once, by the words of its alias. */
  function ExpandAlias(cmds: seq<Command>, aliases: Table): (r: seq<Command>)
    requires cmds != [] && cmds[0].args != []
    ensures |r| == |cmds| && r[1..] == cmds[1..]
    ensures r[0] == cmds[0].(args := r[0].args)
    ensures cmds[0].args[0] in aliases ==>
      r[0].args == Tokenize(aliases[cmds[0].args[0]]) + cmds[0].args[1..]
    ensures cmds[0].args[0] !in aliases ==> r == cmds
  {
    var head := cmds[0].args[0];
    if head in aliases then
      cmds[0 := cmds[0].(args := Tokenize(aliases[head]) + cmds[0].args[1..])]
    else cmds
  }

  /** With an alias text free of `'`, both versions rewrite the command to
      the same words. */
  lemma ExpandAliasAgrees(c: Command, d: Parser.Command, aliases: Table)
    requires c.args != [] && c.args == d.args
    requires c.args[0] in aliases ==> '\'' !in aliases[c.args[0]]
    ensures ExpandAlias([c], aliases)[0].args == Execute.ExpandAlias([d], aliases)[0].args
  {
    if c.args[0] in aliases {
      TokenizeAgrees(aliases[c.args[0]]);
    }
  }

  /** Names v1 answers with a builtin. */
  const BuiltinNames: set<String> := {
    "cd", "help", "exit", "pwd", "env", "set", "unset", "history", "source",
    "ls", "dir", "cat", "echo", "mkdir", "rm", "del", "cls", "clear",
    "alias", "unalias", "touch"
  }

  /** A stage v1 hands to `launch`, with its wiring. */
  datatype Stage = Stage(command: Command, input: Execute.Endpoint, output: Execute.Endpoint)

  /** What `execute` starts. */
  datatype Dispatch = Nothing | Builtin(name: String) | Launched(stages: seq<Stage>)

  datatype Run = Run(code: int, dispatch: Dispatch)

  /** Stage i of a pipeline: launched as a program whatever its name, and
      launched even without words (launch then returns 1). Stage k writes
      pipe k and stage k + 1 reads it; only the ends use the console. */
  function PipelineStages(cmds: seq<Command>): (ss: seq<Stage>)
    ensures |ss| == |cmds|
    ensures forall i :: 0 <= i < |cmds| ==> ss[i].command == cmds[i]
    ensures forall i :: 0 <= i < |cmds| ==>
      && (ss[i].input == Execute.Inherit <==> i == 0)
      && (ss[i].output == Execute.Inherit <==> i == |cmds| - 1)
      && !ss[i].input.PipeWrite? && !ss[i].output.PipeRead?
    ensures forall i, k: nat :: 0 <= i < |cmds| ==>
      (ss[i].output == Execute.PipeWrite(k) <==> i == k && k + 1 < |cmds|)
    ensures forall i, k: nat :: 0 <= i < |cmds| ==>
      (ss[i].input == Execute.PipeRead(k) <==> i == k + 1)
  {
    seq(|cmds|, i requires 0 <= i < |cmds| =>
      Stage(cmds[i],
        if i == 0 then Execute.Inherit else Execute.PipeRead(i - 1),
        if i == |cmds| - 1 then Execute.Inherit else Execute.PipeWrite(i)))
  }

  /** A stage that runs an external program is wired the same way by both
      versions; a builtin stage, which the current version keeps on the
      console, is wired to pipes by v1. */
  lemma StagesAgree(c: seq<Command>, d: seq<Parser.Command>, i: nat)
    requires |c| == |d| && Execute.AllHaveArgs(d) && i < |d|
    ensures Builtins.FindBuiltin(d[i].args[0]).None? ==>
      PipelineStages(c)[i].input == Execute.PipelineStages(d)[i].input &&
      PipelineStages(c)[i].output == Execute.PipelineStages(d)[i].output
    ensures Builtins.FindBuiltin(d[i].args[0]).Some? && |d| >= 2 ==>
      PipelineStages(c)[i].input != Execute.PipelineStages(d)[i].input ||
      PipelineStages(c)[i].output != Execute.PipelineStages(d)[i].output
  {
  }

  /** v1's `execute`. Its code is 1 on every path. The one undefined path:
      a single command whose alias leaves it without words is indexed at
      args[0] when the builtins are searched. */
  function ExecuteV1(cmds: seq<Command>, aliases: Table, pipesCreated: bool): (r: Result<Run>)
    ensures r.Ok? ==> r.value.code == 1
    ensures r == Fail(EmptyArgsIndexed) <==>
      |cmds| == 1 && |cmds[0].args| == 1 && cmds[0].args[0] in aliases &&
      Tokenize(aliases[cmds[0].args[0]]) == []
    ensures r.Fail? ==> r.fault == EmptyArgsIndexed
    ensures |cmds| >= 2 && cmds[0].args != [] && pipesCreated ==>
      r.Ok? && r.value.dispatch.Launched? && |r.value.dispatch.stages| == |cmds|
    ensures |cmds| >= 2 && cmds[0].args != [] && pipesCreated ==>
      r == Ok(Run(1, Launched(PipelineStages(ExpandAlias(cmds, aliases)))))
    ensures |cmds| >= 2 && cmds[0].args != [] && !pipesCreated ==> r == Ok(Run(1, Nothing))
    ensures cmds == [] || cmds[0].args == [] ==> r == Ok(Run(1, Nothing))
    ensures |cmds| == 1 && cmds[0].args != [] && r.Ok? ==>
      (r.value.dispatch.Builtin? <==> ExpandAlias(cmds, aliases)[0].args[0] in BuiltinNames)
    ensures |cmds| == 1 && cmds[0].args != [] && ExpandAlias(cmds, aliases)[0].args != [] ==>
      var c := ExpandAlias(cmds, aliases)[0];
      && (c.args[0] in BuiltinNames ==> r == Ok(Run(1, Builtin(c.args[0]))))
      && (c.args[0] !in BuiltinNames ==>
            r == Ok(Run(1, Launched([Stage(c, Execute.Inherit, Execute.Inherit)]))))
  {
    if cmds == [] || cmds[0].args == [] then Ok(Run(1, Nothing))
    else
      var cs := ExpandAlias(cmds, aliases);
      if |cs| == 1 then
        if cs[0].args == [] then Fail(EmptyArgsIndexed)
        else if cs[0].args[0] in BuiltinNames then Ok(Run(1, Builtin(cs[0].args[0])))
        else Ok(Run(1, Launched([Stage(cs[0], Execute.Inherit, Execute.Inherit)])))
      else if !pipesCreated then Ok(Run(1, Nothing))
      else Ok(Run(1, Launched(PipelineStages(cs))))
  }

  /** In a pipeline v1 never consults the builtins: `cd x | more` launches
      a program called `cd`. */
  lemma BuiltinInPipelineLaunched(a: Command, b: Command, aliases: Table)
    requires a.args == ["cd", "x"] && b.args != [] && "cd" !in aliases
    ensures var r := ExecuteV1([a, b], aliases, true);
      r.Ok? && r.value.dispatch.Launched? && r.value.dispatch.stages[0].command.args[0] == "cd"
  {
  }

  // ------------------------------------------------------ launch command line

  /** v1's command line: every argument, the program name included,
      rendered and followed by one space. */
  function CommandLine(args: seq<String>): (s: String)
    ensures args != [] ==> s == JoinWith(Launch.MapRender(args), ' ') + [' ']
  {
    if args == [] then []
    else
      Launch.TrailingIsJoin(args);
      Launch.Trailing(args)
  }

  /** The current version drops the program name and the final space. */
  lemma CommandLineVersions(args: seq<String>)
    requires |args| >= 2
    ensures Launch.CommandLine(args) + [' '] == CommandLine(args[1..])
  {
    Launch.CommandLineIsJoin(args);
  }
}

=== FILE: variables.dfy ===
/** The `set`, `unset` and `alias` builtins (jshell.cpp): the shell variable
    table, the process environment it mirrors, and the alias table. */
module Variables {
  import opened Outcomes
  import opened Text
  import opened Tokenizer
  import opened Expansion

  /** A builtin's exit code with the tables it leaves behind. */
  datatype Tables = Tables(code: int, vars: Table, env: Table)

  /** `set NAME VALUE...`: the words after the name, joined by single spaces,
      go into both the variable table and the environment. Fewer than three
      words is a usage error that changes nothing. */
  function SetVar(vars: Table, env: Table, args: seq<String>): (r: Tables)
    ensures |args| < 3 ==> r == Tables(1, vars, env)
    ensures |args| >= 3 ==> r.code == 0
    ensures |args| >= 3 ==> args[1] in r.vars && args[1] in r.env && r.vars[args[1]] == r.env[args[1]]
    ensures |args| >= 3 ==> r.vars[args[1]] == JoinWith(args[2..], ' ')
    ensures |args| >= 3 ==> forall n :: n != args[1] ==>
      (n in r.vars <==> n in vars) && (n in vars ==> r.vars[n] == vars[n])
    ensures |args| >= 3 ==> forall n :: n != args[1] ==>
      (n in r.env <==> n in env) && (n in env ==> r.env[n] == env[n])
  {
    if |args| < 3 then Tables(1, vars, env)
    else
      var value := JoinWith(args[2..], ' ');
      Tables(0, vars[args[1] := value], env[args[1] := value])
  }

  /** `unset NAME`: the name leaves both tables. */
  function UnsetVar(vars: Table, env: Table, args: seq<String>): (r: Tables)
    ensures |args| < 2 ==> r == Tables(1, vars, env)
    ensures |args| >= 2 ==> r.code == 0 && args[1] !in r.vars && args[1] !in r.env
    ensures |args| >= 2 ==> forall n :: n != args[1] ==>
      (n in r.vars <==> n in vars) && (n in vars ==> r.vars[n] == vars[n])
    ensures |args| >= 2 ==> forall n :: n != args[1] ==>
      (n in r.env <==> n in env) && (n in env ==> r.env[n] == env[n])
  {
    if |args| < 2 then Tables(1, vars, env)
    else Tables(0, vars - {args[1]}, env - {args[1]})
  }

  /** `set NAME w1 w2 ...` followed by `$NAME` gives the words back: the
      value splits into the same words, provided each is non-empty and holds
      no white space or quote. */
  lemma SetThenReference(vars: Table, env: Table, name: String, words: seq<String>)
    requires IsName(name) && words != []
    requires forall k :: 0 <= k < |words| ==> words[k] != [] && Plain(words[k])
    ensures var r := SetVar(vars, env, ["set", name] + words);
      Tokenize(Substitute(['$'] + name, r.vars, r.env)) == words
  {
    var args := ["set", name] + words;
    assert args[1] == name && args[2..] == words;
    var r := SetVar(vars, env, args);
    NamedValueNotRescanned(name, [], r.vars, r.env);
    assert ['$'] + name + [] == ['$'] + name;
    assert Lookup(name, r.vars, r.env) + [] == JoinWith(words, ' ');
    TokenizeJoined(words);
  }

  /** `set NAME ...` followed by `unset NAME` leaves both tables as they
      were, less NAME. */
  lemma SetThenUnset(vars: Table, env: Table, name: String, words: seq<String>)
    requires words != []
    ensures var s := SetVar(vars, env, ["set", name] + words);
      var u := UnsetVar(s.vars, s.env, ["unset", name]);
      u == Tables(0, vars - {name}, env - {name})
  {
  }

  /** After `unset NAME`, `$NAME` expands to nothing. */
  lemma UnsetThenReference(vars: Table, env: Table, name: String)
    requires IsName(name)
    ensures var r := UnsetVar(vars, env, ["unset", name]);
      Substitute(['$'] + name, r.vars, r.env) == []
  {
    var r := UnsetVar(vars, env, ["unset", name]);
    NamedValueNotRescanned(name, [], r.vars, r.env);
    assert ['$'] + name + [] == ['$'] + name;
  }

  /** One pair of matching surrounding quotes is removed. A value that is a
      single quote character starts and ends with it, and `substr(1, npos)`
      of it is empty. */
  function StripQuotes(c: String): (r: String)
    ensures |c| >= 2 && IsQuote(c[0]) && c[|c| - 1] == c[0] ==> r == c[1..|c| - 1]
    ensures |c| == 1 && IsQuote(c[0]) ==> r == []
    ensures c == [] || !IsQuote(c[0]) || c[|c| - 1] != c[0] ==> r == c
  {
    if c != [] && IsQuote(c[0]) && c[|c| - 1] == c[0] then
      if |c| == 1 then [] else c[1..|c| - 1]
    else c
  }

  /** Quoting a value and stripping the quotes gives the value back. */
  lemma StripQuotesRoundTrip(q: char, v: String)
    requires IsQuote(q)
    ensures StripQuotes([q] + v + [q]) == v
  {
    var c := [q] + v + [q];
    assert c[|c| - 1] == q;
    assert c[1..|c| - 1] == v;
  }

  /** The alias builtin's answer: its exit code and the alias table after it. */
  datatype AliasResult = AliasResult(code: int, aliases: Table)

  /** The text after `alias`: the words joined by single spaces. */
  function AliasText(args: seq<String>): String
    requires |args| >= 1
  {
    JoinWith(args[1..], ' ')
  }

  /** `alias`: with no words it lists the table; with words but no `=` it shows
      one alias, failing when there is none; otherwise the text up to the first
      `=` names the alias and the rest, without one pair of surrounding
      quotes, is its command. The caller always passes the builtin's own name
      as args[0]. */
  function AliasBuiltin(aliases: Table, args: seq<String>): (r: AliasResult)
    requires |args| >= 1
    ensures |args| == 1 ==> r == AliasResult(0, aliases)
    ensures |args| > 1 && '=' !in AliasText(args) ==>
      r == AliasResult(if AliasText(args) in aliases then 0 else 1, aliases)
    ensures |args| > 1 && '=' in AliasText(args) ==>
      var t := AliasText(args);
      var e := Find(t, '=').value;
      && r.code == 0
      && r.aliases == aliases[t[..e] := StripQuotes(t[e + 1..])]
      && '=' !in t[..e]
  {
    if |args| == 1 then AliasResult(0, aliases)
    else
      var t := AliasText(args);
      match Find(t, '=')
      case None => AliasResult(if t in aliases then 0 else 1, aliases)
      case Some(e) => AliasResult(0, aliases[t[..e] := StripQuotes(t[e + 1..])])
  }

  /** What the listing prints for one alias, `name='command'`, defines that
      alias again when given back to the builtin as a single word. */
  lemma AliasListingRedefines(aliases: Table, name: String, command: String)
    requires '=' !in name
    ensures AliasBuiltin(aliases, ["alias", name + "='" + command + "'"]).aliases ==
      aliases[name := command]
  {
    var w := name + "='" + command + "'";
    var args := ["alias", w];
    assert args[1..] == [w];
    assert AliasText(args) == w;
    assert w[|name|] == '=';
    FindFromReachesName(w, name);
    assert w[..|name|] == name;
    assert w[|name| + 1..] == ['\''] + command + ['\''];
    StripQuotesRoundTrip('\'', command);
  }

  lemma FindFromReachesName(w: String, name: String)
    requires |name| < |w| && w[|name|] == '=' && '=' !in name && w[..|name|] == name
    ensures Find(w, '=') == Some(|name|)
  {
    assert forall j :: 0 <= j < |name| ==> w[j] == name[j];
    FindFromReaches(w, '=', 0, |name|);
  }
}
